=== FILE: README.md ===
# A model of a Go reverse-proxy load balancer

This project models the core of a small HTTP load balancer written in Go. The
model is in Dafny and its properties are proved, not executed. The balancer keeps
an ordered pool of backend servers. It selects one backend per request using one of
several strategies: basic, round robin, least connections and least latency. It
forwards the request with the URL host and scheme rewritten, and counts the
request against the chosen backend while it is in flight. It then streams the
upstream response back in chunks of at most 1024 bytes. A health monitor
probes every backend with retries and writes back the health flag and the
probe latency.

The repository holds two generations of this code, and both are modelled as
separate modules over one shared `Backend` record:

- The current generation (root package) is in modules `Basic`,
  `LeastConnections`, `LeastLatency`, `Balancers`, `Monitor` and `Proxy`.
- The older generation (`balancers/` and `monitor/`) is in modules
  `LegacyBasic`, `LegacyMonitor` and `RoundRobin`. It has no latency field.
  `balancers/basic.go` uses value receivers and finds duplicates by URL path
  alone. `balancers/roundRobin.go` registers through a pointer receiver and
  finds duplicates by comparing whole printed URLs, as the current
  generation does; only its `DeregisterServer` and getters have value
  receivers.
- The root package refers to a `NewRoundRobinBalancer` whose code is not in
  the repository. Its balancer is assumed to behave like the one in
  `balancers/roundRobin.go`, so `Balancers` uses the `RoundRobin` module for
  the round-robin kind.
- The shared logic lives in `Slices` (`Filter`, `cmp.Compare`,
  `slices.MinFunc`), `Backends`, `Requests` (`updateRequest`), `Registry`
  (the registration and deregistration loops every balancer repeats) and
  `Probing` (`validateResponse` and the retry loop).

How the Go constructs are represented:

- A pool is a `seq<Backend>`.
- A pointer into the pool is a position in it. One exception is not
  modelled: after a value-receiver deregistration, two slots of the Go
  slice hold the same pointer, while the model holds two equal copies (see
  `Registry.Deregister` under "Left out").
- The connection counter is a `bv32`, so its wrap-around is explicit.
- The network, the clock and the client connection are replaced by their
  observable outcomes, passed in as parameters:
  - the upstream answer;
  - the sequence of reads of its body;
  - which writes to the client succeed;
  - the probe outcomes of each attempt;
  - the elapsed time as a value.

The model follows the code as written. In some places the code does not do
what its names and doc comments lead a reader to expect:

- The doc comments of the least-connections and least-latency strategies
  (balancers.go:26 and balancers.go:32) promise the fewest connections and
  the lowest latency.
- `DeregisterServer` is documented as removing the server
  (balancers.go:86), yet it always returns an error.
- A caller may also expect a batch registration to be all-or-nothing,
  although the doc comment (balancers.go:83) only says that servers are
  added.

In each place the model keeps the code's behaviour and states the gap: as
the lemmas `Balancers.FewestConnectionsNotHonoured`,
`Balancers.LowestLatencyNotHonoured`, `LeastConnections.MayPickUnhealthy`,
`LeastLatency.IgnoresLatency` and `Registry.BatchDuplicateRejected`, and as
the clause `ensures r.failed` of `Registry.Deregister`, which holds whether
or not a backend was removed.

## Model

| member | source | states |
|---|---|---|
| `Slices.Compare` | leastConnections.go:33-35 | the three-way comparison is -1, 0 or 1, negative exactly when the first value is smaller and zero exactly when they are equal |
| `Slices.Filter` | utils.go:15-24 | the output is no longer than the input, every output element satisfies the predicate and comes from the input, and every satisfying input element appears in the output |
| `Slices.FilterSingleton` | utils.go:16-24 | a one-element slice is kept exactly when its element satisfies the predicate |
| `Slices.FilterConcat` | utils.go:16-24 | filtering a concatenation is concatenating the filtered parts, so the output is the order-preserving subsequence of satisfying elements |
| `Slices.FilterIdempotent` | utils.go:16-24 | filtering twice with one predicate is filtering once |
| `Slices.FilterEmpty` | utils.go:16-24 | the output is empty if and only if no input element satisfies the predicate |
| `Slices.FilterHead` | utils.go:16-24 | the output starts with the first satisfying input element |
| `Slices.MinFromFirstLeast` | leastConnections.go:33-35 | the running-minimum loop of `slices.MinFunc`, driven by a key comparator, ends on an element of least key with every earlier element strictly greater |
| `Slices.MinFunc` | leastConnections.go:33-35 | `slices.MinFunc` on a non-empty slice returns a position inside it; what that position is, `Slices.MinFuncOrder` and `Slices.MinFuncFirstLeast` state |
| `Slices.MinFuncFirstLeast` | leastConnections.go:33-35 | with a comparator that orders by a key, `MinFunc` returns an element of least key, the earliest among ties |
| `Slices.MinFuncOrder` | leastConnections.go:33-35 | whatever the comparator, no element after the one `slices.MinFunc` returns compares less than it, and a returned element other than the first compared less than some earlier element |
| `Slices.MinFuncNeverMoves` | leastLatency.go:36-39 | with a comparator that never answers "less", `MinFunc` returns the first element |
| `Backends.UrlStringShape` | basic.go:48 | the printed URL starts with `scheme:` when there is a scheme, ends with `?query` when there is a query, and is the bare path when there is no scheme, host or query |
| `Backends.HostLayout` | basic.go:48 | with a host, `//` and the host follow `scheme:` or start the URL, and with a path the next character is a `/` even when the path lacks one |
| `Backends.EmptyHostLayout` | basic.go:48 | with a scheme and no host, `//` follows `scheme:` exactly when there is a path |
| `Backends.SlashSeparatesHostFromPath` | basic.go:48 | host `a` with path `bc` prints as `http://a/bc` and host `ab` with path `c` as `http://ab/c`, so the inserted `/` keeps the two apart |
| `Backends.HostDistinguishes` | basic.go:47-51 | two URLs that differ only in a non-empty host print differently, so the whole-URL duplicate check tells them apart |
| `Backends.ScanHealthy` | basic.go:25-32 | the scan finds nothing exactly when no backend from the start position is healthy, and otherwise finds a healthy backend with no healthy one before it |
| `Backends.HealthyPositionsEmpty` | leastConnections.go:27-32 | filtering the pool by health gives nothing if and only if no backend is healthy |
| `Requests.UpdateRequest` | utils.go:8-13 | the rewritten request takes the target's host and scheme and an empty RequestURI, and keeps its path, query, method, Host header and headers |
| `Requests.UpdateRequestIdempotent` | balancers/utils.go:8-13 | rewriting twice towards one target equals rewriting once |
| `Requests.UpdateRequestLastWins` | utils.go:8-13 | of two rewrites the later target wins |
| `Requests.UpdateRequestIgnoresTargetPath` | utils.go:8-13 | only the target's host and scheme reach the request; its path and query do not |
| `Registry.Register` | basic.go:44-55 | the pool becomes the old pool followed by the longest batch prefix whose every server had a fresh key against the pool and the servers appended before it; an error is returned exactly when that prefix stops short, at a server whose key is taken |
| `Registry.RegisterStep` | basic.go:46-53 | accepting one server and registering the rest into the grown pool satisfies the registration relation for the whole batch |
| `Registry.RegisterKeepsUnique` | leastConnections.go:42-53 | a pool without duplicate keys has none after registration, whether or not it stops part-way |
| `Registry.RegisterFreshBatch` | balancers/roundRobin.go:58-69 | a batch of fresh, pairwise distinct servers is appended in full, in argument order, without error |
| `Registry.BatchDuplicateRejected` | leastLatency.go:48-59 | the second of two same-key servers in one batch is refused and the first stays appended, so registration is not all-or-nothing |
| `Registry.ScanPath` | leastConnections.go:56-57 | the scan finds nothing exactly when no backend has the path, and otherwise finds a backend on the path |
| `Registry.Deregister` | basic.go:57-65 | an error is returned in every case; with no backend on the target's path the pool is unchanged; otherwise the matching slot holds the last backend and the pool is one shorter through a pointer receiver, the same length through a value receiver |
| `Registry.DeregisterRemovesOne` | leastConnections.go:55-63 | through a pointer receiver, no backend on the path remains and the pool loses exactly the one matching backend (as a multiset) |
| `Basic.NextServer` | basic.go:25-32 | nothing is returned exactly when no backend is healthy; otherwise the first healthy backend in registration order |
| `Basic.Serve` | basic.go:34-42 | it fails with "no healthy upstream" exactly when no backend is healthy; otherwise it forwards the request rewritten towards the first healthy backend |
| `Basic.FirstHealthyUnique` | basic.go:25-32 | only one position can be the first healthy one, so the basic choice depends on the health flags alone |
| `LeastConnections.ByConnectionsIsKeyed` | leastConnections.go:33-35 | the comparator closure handed to `MinFunc` is `cmp.Compare` of the two backends' connection counters |
| `LeastConnections.NextServer` | leastConnections.go:26-36 | nothing is returned exactly when no backend is healthy; otherwise the backend returned has the fewest connections over the whole pool, healthy or not, and is the earliest such backend |
| `LeastConnections.MayPickUnhealthy` | leastConnections.go:27-35 | an idle unhealthy backend is chosen over a busy healthy one |
| `LeastLatency.SelfCompareIsZero` | leastLatency.go:36-39 | the comparator compares a backend's latency with itself and answers 0 for every pair |
| `LeastLatency.NextServer` | leastLatency.go:26-41 | nothing is returned exactly when no backend is healthy; otherwise the first healthy backend in registration order |
| `LeastLatency.SingleHealthyShortcut` | leastLatency.go:33-35 | with exactly one healthy backend, that backend is returned |
| `LeastLatency.SameAsBasic` | leastLatency.go:26-41 | the least-latency choice always equals the basic choice |
| `LeastLatency.IgnoresLatency` | leastLatency.go:36-40 | a later healthy backend with a far lower latency is not chosen |
| `RoundRobin.Increment` | balancers/roundRobin.go:26-31 | the cursor stays below the pool length, steps by one with wrap-around, and returns to 0 from beyond a shrunken pool |
| `RoundRobin.Skip` | balancers/roundRobin.go:36-41 | the skip loop ends on a healthy backend, or after its bounded number of advances with every backend it passed unhealthy; a healthy result is the first healthy backend going round from where the loop started |
| `RoundRobin.NextServer` | balancers/roundRobin.go:33-47 | the result is empty if and only if no backend is healthy; a returned backend is the first healthy one going round from the advanced cursor, within one round, and the cursor rests on it; on an empty result the cursor rests one step past where it started |
| `RoundRobin.SameHealthSameTarget` | balancers/roundRobin.go:36-43 | where round-robin selection lands from a given cursor depends on the backends' health flags alone |
| `RoundRobin.FirstAheadUnique` | balancers/roundRobin.go:36-43 | only one distance round the pool can be that of the first healthy backend, so the round-robin choice is determined |
| `RoundRobin.SkipsToNextHealthy` | balancers/roundRobin.go:36-43 | from cursor 0 over healthy, unhealthy, healthy backends, selection skips the unhealthy one and returns position 2 |
| `RoundRobin.Serve` | balancers/roundRobin.go:49-56 | it fails with "no healthy upstream" exactly when no backend is healthy; otherwise it forwards the request rewritten towards the first healthy backend going round from the advanced cursor, on which the cursor rests |
| `RoundRobin.FreshBalancerStartsAtOne` | balancers/roundRobin.go:33-35 | a fresh balancer's first call returns position 1 even when position 0 is healthy |
| `RoundRobin.AllHealthyRotation` | balancers/roundRobin.go:33-47 | with every backend healthy, call `j` returns the position `j + 1` steps past the starting cursor, wrapped |
| `RoundRobin.FullRoundVisitsEachOnce` | balancers/roundRobin.go:26-35 | with every backend healthy, any pool-length run of calls returns every backend exactly once |
| `LegacyBasic.NextServer` | balancers/basic.go:21-28 | nothing is returned exactly when no backend is healthy; otherwise a copy of the first healthy backend |
| `LegacyBasic.Serve` | balancers/basic.go:30-38 | it fails with "No healthy Upstream." exactly when no backend is healthy; otherwise it forwards the request unmodified |
| `LegacyBasic.RegisterServers` | balancers/basic.go:40-51 | the caller's pool is unchanged, and an error is reported exactly when some server's path clashes with the pool or with an earlier server of the batch |
| `LegacyBasic.DeRegisterServer` | balancers/basic.go:53-61 | an error is returned in every case; the pool keeps its length and its non-matching backends, and the matching slot now holds the last backend |
| `LegacyBasic.EntryPointPathsCoincide` | main.go:34-44 | the entry point's three servers all have the empty path, so a deregistration from the pool they form meets three matches |
| `LegacyBasic.SamePathServersCollide` | balancers/basic.go:42-49 | compared by path alone, the entry point's three servers collide: only the first is kept and an error is returned |
| `LegacyBasic.DistinctUrlsRegister` | basic.go:44-55 | compared by the whole URL, the entry point's three servers are all registered without error |
| `Balancers.Ordinal` | balancers.go:13-36 | every strategy stands for an integer in 0..5 |
| `Balancers.FromOrdinal` | balancers.go:13-36 | an integer names a strategy exactly when it lies in 0..5, and that strategy's ordinal is the integer |
| `Balancers.OrdinalRoundTrip` | balancers.go:13-36 | the ordinals follow declaration order from 0, and each strategy is recovered from its ordinal |
| `Balancers.TableShape` | balancers.go:46-67 | the table has entries for exactly basic, round robin, least latency and least connections, and the least-connections entry names the least-latency constructor |
| `Balancers.TableNaming` | balancers.go:46-67 | every entry of `StrategyBalancerMap` holds the constructor named after its strategy, except exactly the least-connections entry, which holds the least-latency constructor |
| `Balancers.MissingEntries` | balancers.go:46-67 | a strategy lacks an entry exactly when it is weighted round robin or random |
| `Balancers.Construct` | leastLatency.go:15-20 | every constructor builds an empty pool, and the least-latency and least-connections constructors build a basic balancer |
| `Balancers.NewBalancer` | balancers.go:105-107 | construction fails (nil constructor) exactly for weighted round robin and random; least connections and least latency yield an empty basic balancer |
| `Balancers.NextServer` | balancers.go:75-77 | selection changes no backend and only the round-robin cursor moves; the result is empty exactly when no backend is healthy; a returned backend is healthy except for least connections; the basic kind returns the first healthy backend; the round-robin kind returns the first healthy backend ahead of its advanced cursor and leaves the cursor on it |
| `Balancers.Serve` | balancers.go:79-81 | no backend changes; only round robin moves its cursor; a refusal happens exactly when no backend is healthy and the balancer is basic or round robin; a forwarded request is rewritten towards a backend of the pool; for round robin, towards the first healthy backend ahead of the advanced cursor, on which the cursor then rests |
| `Balancers.ServeTargetsChosen` | main.go:70-78 | except for round robin, the request is forwarded to the backend that selection chose |
| `Balancers.RoundRobinServesAnother` | balancers/roundRobin.go:49-56 | a round-robin balancer handed its chosen backend selects again and forwards to the next backend instead |
| `Balancers.RegisterServers` | balancers.go:83-84 | every kind registers by whole-URL key with the partial-failure behaviour of `Registry.Register`, keeps keys unique, and changes nothing but the pool |
| `Balancers.DeregisterServer` | balancers.go:86-87 | an error is returned in every case and nothing but the pool changes; with no match the balancer is unchanged; a match shortens the pool by one for the least-connections and least-latency kinds and keeps its length for the value-receiver kinds, and every remaining slot holds its old backend except the matching slot, which holds the last backend |
| `Balancers.StrategyBuildsBasic` | balancers.go:57-66 | whatever is registered, a balancer built for least connections or least latency answers with the first healthy backend |
| `Balancers.FewestConnectionsNotHonoured` | balancers.go:26-27 | a least-connections balancer picks a busy first server over an idle second one |
| `Balancers.LowestLatencyNotHonoured` | balancers.go:32-33 | a least-latency balancer picks a slow first server over a fast second one |
| `Probing.ValidateResponse` | monitor.go:85-94 | a transport error fails, and a status succeeds exactly when it is below 300 |
| `Probing.RunAttempts` | monitor.go:72-78 | attempts never exceed the configured maximum; the verdict is healthy exactly when a success lies within the first maximum outcomes; the loop stops at the first success, and otherwise uses every attempt |
| `Monitor.Fire` | monitor.go:62-83 | only the health flag and the latency of the server are written; the flag is the retry verdict; attempts stay within the bound, stop at the first success, and use the whole bound when unhealthy |
| `Monitor.CheckHealth` | monitor.go:53-60 | every listed server is probed once: its health is its own retry verdict and its latency its own elapsed time, and nothing else changes |
| `Monitor.AlwaysFailingIsUnhealthy` | monitor.go:75-78 | a server answering 500 on every attempt is unhealthy |
| `Monitor.SecondAttemptSucceeds` | monitor.go:75-78 | a server that fails once and then answers 200 is healthy |
| `LegacyMonitor.Fire` | monitor/main.go:63-82 | only the health flag is written; it is the retry verdict; attempts stay within the bound, stop at the first success (no earlier outcome succeeded), and use the whole bound when unhealthy |
| `LegacyMonitor.CheckHealth` | monitor/main.go:54-61 | every listed server is probed once, and only its health flag changes, to its own retry verdict |
| `LegacyMonitor.NoAttemptsMeansUnhealthy` | monitor/main.go:76-79 | with a non-positive attempt limit, no probe succeeds |
| `Proxy.ChunksPayload` | main.go:92-108 | the bytes written, chunk after chunk, are the bytes read, in order |
| `Proxy.ChunksGrow` | main.go:92-104 | taking more reads never lowers the number of chunks written |
| `Proxy.DrainedIffClean` | main.go:105-111 | the copy ends drained exactly when the body reaches end of file before any read error and every write succeeds |
| `Proxy.CopyBody` | main.go:92-112 | every chunk holds 1 to 1024 bytes; the written bytes are the body read so far; the copy stops at end of file, at the first read error, or at the first failed write, with no read after it; it ends drained exactly on a clean copy |
| `Proxy.CounterRestored` | main.go:76-77 | adding all ones to an incremented 32-bit counter restores it, and the increment wraps at 2^32 |
| `Proxy.RaiseKeepsHealth` | main.go:76 | raising a counter changes no health flag or first healthy backend |
| `Proxy.LowerUndoesRaise` | main.go:76-77 | the deferred decrement returns the pool exactly to what it was |
| `Proxy.ServeCounted` | main.go:76-78 | the chosen backend's counter is one higher while the request is in flight and back afterwards; the request is forwarded to the chosen backend, except that a round-robin balancer forwards to the first healthy backend ahead of its cursor and leaves its cursor there |
| `Proxy.RaisedTarget` | main.go:76-78 | raising the chosen backend's counter does not change where the round-robin balancer forwards |
| `Proxy.Respond` | main.go:80-112 | X-Processing-Time is set; a transport error is answered 502 with its message; a response has its status and Content-Type passed through and its body copied |
| `Proxy.ServeChosen` | main.go:75-112 | once a backend is chosen, the pool ends as it began, the counter was raised while in flight, the request went to the chosen backend (for round robin, to the first healthy backend ahead of the cursor, where the cursor ends), and the exchange is what `Proxy.Respond` promises: X-Processing-Time set; a transport error answered 502 with its message and no other header; a response with its status and Content-Type passed through, no other header, and its body copied |
| `Proxy.HandleProxy` | main.go:65-115 | with no backend selected, the answer is 502 "no healthy upstream" with no header, no dispatch and no counter touched; otherwise the chosen backend is served, with the balancer as selection left it, as `Proxy.ServeChosen` states; either way the pool ends as it began |

## Left out

- Network I/O is not modelled. This covers `client.Do`, the HTTP/1.1 or HTTP/2 transport choice of `NewMonitor`, and `ListenAndServe`. Upstream answers, body reads, client writes and probe outcomes are parameters.
- Wall-clock time is not modelled. `time.Now` and `time.Since` become an elapsed value passed in: a string for the X-Processing-Time header and milliseconds for the latency.
- Concurrency is not modelled. This covers goroutines, the `WaitGroup` fan-out of a health round, races on the atomic counter, and the one-second monitor loop. A round is one probe per listed server, in list order.
- `main()` bootstrapping is not modelled: configuration, URL parsing, `handleErr` panics, the `NewRequest` misconfiguration panic, `slog` logging, and flushing after each chunk. The entry point's three servers appear only in `LegacyBasic.EntryPointServers`.
- `balancers/main.go` holds only declarations and a one-case factory that does not type-check; it is not part of this model.
- `GetName`, `GetStrategy` and `ListServers` return constants or the pool as is, so they are not modelled.
- `NewBasicBalancer` and `NewRoundRobinBalancer` are not modelled. They are assumed to build their own kind with an empty pool, the round-robin cursor at 0.
- Interface conformance is not modelled. The root `BasicBalancer.Serve` takes no server and selects again; the round-robin `Serve` does the same and moves its cursor a second time. `Balancers.Serve` models each method as written, not the interface signature.
- `Backends.UrlString` models `url.URL.String()` for scheme, host, path and query only. It covers the `//` before the host and the `/` inserted before a relative path. It leaves out escaping, user info, opaque URLs, `OmitHost`, `ForceQuery`, fragments, and the `./` written before a relative path whose first segment holds a colon.
- Latency is an unbounded `int`, not an `int64`, because it is only compared.
- `Requests.UpdateRequest` returns the rewritten request as a new value rather than the same pointer it mutated.
- Registry.Deregister: requires at most one backend on the target's path. With two matches, the Go loop ranges over the slice while shrinking it and can index past its end. The excluded case is exactly the entry point's own setup: its three servers (main.go:34-44) all have the empty path, so deregistering any of them from that pool meets three matches (`LegacyBasic.EntryPointPathsCoincide`). The source has a latent defect here.
- Registry.Deregister: with a value receiver, Go leaves the matching slot and the last slot pointing at the same backend, so a later counter increment or health write through one is seen through the other. The model stores two equal copies, which later updates can make differ.
- Balancers.DeregisterServer: the same one-match requirement, for the same reason.
- LegacyBasic.DeRegisterServer: the same one-match requirement, for the same reason.
- RoundRobin.NextServer: requires a non-empty pool, because the Go code indexes the pool before any check and panics on an empty one. `Balancers.Selectable` carries this requirement for the round-robin kind.
- Slices.MinFunc: requires a non-empty slice, as `slices.MinFunc` panics on an empty one.
- Probing.RunAttempts: requires at least `MaxAttempts` probe outcomes to be supplied. This is how the model stands in for the transport, not a requirement of the source.
- Monitor.Fire: the same supply of outcomes, for the same reason.
- LegacyMonitor.Fire: the same supply of outcomes, for the same reason.
- Proxy.CopyBody: requires the body to fit reads in the 1024-byte buffer and to eventually report end of file or an error, as a response body reader does. An endlessly streaming body is not modelled.
- Proxy.CopyBody: a failed write is taken to deliver nothing; a partially delivered failed write is not modelled.
- Proxy.ServeCounted: lowers the counter before the response is copied, whereas the deferred decrement in main.go:77 runs after the copy loop. Without concurrency nothing reads the counter in between, so the order cannot be observed.

=== FILE: backends.dfy ===
/** The shared data model: a backend's URL and the backend record itself.
    Both code generations use this record; the older one never touches the
    latency and connection fields. */
module Backends {
  import opened Wrappers
  import opened Slices

  /** The parts of a `url.URL` the balancers read or write. */
  datatype Url = Url(scheme: string, host: string, path: string, rawQuery: string)

  /** `scheme:`, or nothing without a scheme. */
  function SchemePart(u: Url): string
  {
    if u.scheme != "" then u.scheme + ":" else ""
  }

  /** `//` and the host, written when there is a scheme or a host, unless
      host and path are both empty. */
  function HostPart(u: Url): string
  {
    if (u.scheme != "" || u.host != "") && (u.host != "" || u.path != "") then "//" + u.host else ""
  }

  /** The path, with a `/` put between a host and a path that does not
      start with one. */
  function PathPart(u: Url): string
  {
    (if u.host != "" && u.path != "" && u.path[0] != '/' then "/" else "") + u.path
  }

  /** `?query`, or nothing without a query. */
  function QueryPart(u: Url): string
  {
    if u.rawQuery != "" then "?" + u.rawQuery else ""
  }

  /** `url.URL.String()` for the parts modelled here: scheme, host, path and
      query, in that order. */
  function UrlString(u: Url): string
  {
    SchemePart(u) + HostPart(u) + PathPart(u) + QueryPart(u)
  }

  /** The printed URL starts with `scheme:` when there is a scheme, ends
      with `?query` when there is a query, and is the bare path when there
      is neither scheme, host nor query. */
  lemma UrlStringShape(u: Url)
    ensures u.scheme != "" ==> |UrlString(u)| > |u.scheme| && UrlString(u)[..|u.scheme| + 1] == u.scheme + ":"
    ensures u.rawQuery != "" ==>
      |UrlString(u)| > |u.rawQuery| && UrlString(u)[|UrlString(u)| - |u.rawQuery| - 1..] == "?" + u.rawQuery
    ensures u.scheme == "" && u.host == "" && u.rawQuery == "" ==> UrlString(u) == u.path
  {
    var s, h, p, q := SchemePart(u), HostPart(u), PathPart(u), QueryPart(u);
    assert UrlString(u) == s + h + p + q;
    assert (s + h + p + q)[..|s|] == s;
    assert (s + h + p + q)[|s + h + p|..] == q;
  }

  /** Two URLs that agree on everything but a (non-empty) host print
      differently. */
  lemma HostDistinguishes(u: Url, v: Url)
    requires u.scheme == v.scheme && u.path == v.path && u.rawQuery == v.rawQuery
    requires u.host != "" && v.host != "" && u.host != v.host
    ensures UrlString(u) != UrlString(v)
  {
    HostInMiddle(u);
    HostInMiddle(v);
    assert PathPart(u) == PathPart(v) && QueryPart(u) == QueryPart(v);
    MiddleDiffers(SchemePart(u) + "//", u.host, v.host, PathPart(u) + QueryPart(u));
  }

  /** With a host, `//` and the host follow `scheme:` (or start the URL),
      and when there is a path the next character is `/`, whether or not
      the path starts with one. */
  lemma HostLayout(u: Url)
    requires u.host != ""
    ensures var k := if u.scheme != "" then |u.scheme| + 1 else 0;
      && |UrlString(u)| >= k + 2 + |u.host|
      && UrlString(u)[k..k + 2] == "//"
      && UrlString(u)[k + 2..k + 2 + |u.host|] == u.host
      && (u.path != "" ==> |UrlString(u)| > k + 2 + |u.host| && UrlString(u)[k + 2 + |u.host|] == '/')
  {
    HostInMiddle(u);
    var pre, rest := SchemePart(u) + "//", PathPart(u) + QueryPart(u);
    var w := pre + u.host + rest;
    assert w[|pre| - 2..|pre|] == "//";
    assert w[|pre|..|pre| + |u.host|] == u.host;
    if u.path != "" {
      assert rest[0] == '/';
      assert w[|pre| + |u.host|] == rest[0];
    }
  }

  /** With a scheme and no host, `//` follows `scheme:` exactly when there
      is a path: `http:///p` but `http:`. */
  lemma EmptyHostLayout(u: Url)
    requires u.scheme != "" && u.host == ""
    ensures u.path != "" ==> |UrlString(u)| >= |u.scheme| + 3 && UrlString(u)[|u.scheme| + 1..|u.scheme| + 3] == "//"
    ensures u.path == "" ==> UrlString(u) == u.scheme + ":" + (if u.rawQuery != "" then "?" + u.rawQuery else "")
  {
    if u.path != "" {
      var pre := SchemePart(u);
      var w := pre + "//" + (PathPart(u) + QueryPart(u));
      assert UrlString(u) == w;
      assert w[|pre|..|pre| + 2] == "//";
    }
  }

  /** With a host, the printed URL is the scheme part and `//`, then the
      host, then the path and query parts. */
  lemma HostInMiddle(u: Url)
    requires u.host != ""
    ensures UrlString(u) == (SchemePart(u) + "//") + u.host + (PathPart(u) + QueryPart(u))
  {
    assert HostPart(u) == "//" + u.host;
  }

  /** The host and a relative path are kept apart by a `/`, so moving a
      character between them gives a different string. */
  lemma SlashSeparatesHostFromPath()
    ensures UrlString(Url("http", "a", "bc", "")) == "http://a/bc"
    ensures UrlString(Url("http", "ab", "c", "")) == "http://ab/c"
  {
  }

  /** `BackendServer`: the health flag, the health-check endpoint (which is
      also where requests are forwarded), the last probe latency in
      milliseconds, and the 32-bit in-flight connection counter. */
  datatype Backend = Backend(healthy: bool, endpoint: Url, latency: int, connections: bv32)

  /** No backend of the pool is healthy. */
  predicate NoneHealthy(pool: seq<Backend>)
  {
    forall j :: 0 <= j < |pool| ==> !pool[j].healthy
  }

  /** Backend `i` exists and is healthy; the filter predicate over positions. */
  function HealthyAt(pool: seq<Backend>): nat -> bool
  {
    (i: nat) => i < |pool| && pool[i].healthy
  }

  /** Backend `i` is the first healthy backend in registration order. */
  predicate FirstHealthy(pool: seq<Backend>, i: nat)
  {
    && i < |pool|
    && pool[i].healthy
    && forall j :: 0 <= j < i ==> !pool[j].healthy
  }

  /** The position of the first healthy backend, scanning from `from`. */
  function ScanHealthy(pool: seq<Backend>, from: nat): (r: Option<nat>)
    requires from <= |pool|
    ensures r.None? <==> forall j :: from <= j < |pool| ==> !pool[j].healthy
    ensures r.Some? ==> from <= r.value < |pool| && pool[r.value].healthy
    ensures r.Some? ==> forall j :: from <= j < r.value ==> !pool[j].healthy
    decreases |pool| - from
  {
    if from == |pool| then None
    else if pool[from].healthy then Some(from)
    else ScanHealthy(pool, from + 1)
  }

  /** Filtering the positions by health leaves nothing exactly when no
      backend is healthy. */
  lemma HealthyPositionsEmpty(pool: seq<Backend>)
    ensures |Filter(Positions(|pool|), HealthyAt(pool))| == 0 <==> NoneHealthy(pool)
  {
    var ps := Positions(|pool|);
    FilterEmpty(ps, HealthyAt(pool));
    if !NoneHealthy(pool) {
      var j :| 0 <= j < |pool| && pool[j].healthy;
      assert HealthyAt(pool)(ps[j]);
    }
  }
}

=== FILE: balancers.dfy ===
/** balancers.go: the strategy enumeration, the strategy-to-constructor
    table, `NewBalancer`, and the balancer kinds the constructors build,
    with each kind's selection, registration and deregistration. */
module Balancers {
  import opened Wrappers
  import opened Backends
  import opened Registry
  import opened Requests
  import Basic
  import LeastConnections
  import LeastLatency
  import RoundRobin

  /** `Strategy`, an `iota` enumeration. */
  datatype Strategy =
    | StrategyBasic
    | StrategyRoundRobin
    | StrategyWeightedRoundRobin
    | StrategyLeastConnections
    | StrategyRandom
    | StrategyLeastLatency

  /** The integer each strategy constant stands for. */
  function Ordinal(s: Strategy): (n: nat)
    ensures n < 6
  {
    match s
    case StrategyBasic => 0
    case StrategyRoundRobin => 1
    case StrategyWeightedRoundRobin => 2
    case StrategyLeastConnections => 3
    case StrategyRandom => 4
    case StrategyLeastLatency => 5
  }

  /** The strategy an integer stands for, if any. */
  function FromOrdinal(n: int): (r: Option<Strategy>)
    ensures r.Some? <==> 0 <= n < 6
    ensures r.Some? ==> Ordinal(r.value) == n
  {
    if n == 0 then Some(StrategyBasic)
    else if n == 1 then Some(StrategyRoundRobin)
    else if n == 2 then Some(StrategyWeightedRoundRobin)
    else if n == 3 then Some(StrategyLeastConnections)
    else if n == 4 then Some(StrategyRandom)
    else if n == 5 then Some(StrategyLeastLatency)
    else None
  }

  /** The ordinals follow declaration order from 0, and every strategy is
      recovered from its ordinal. */
  lemma OrdinalRoundTrip(s: Strategy)
    ensures FromOrdinal(Ordinal(s)) == Some(s)
    ensures Ordinal(StrategyBasic) == 0 && Ordinal(StrategyRoundRobin) == 1
    ensures Ordinal(StrategyWeightedRoundRobin) == 2 && Ordinal(StrategyLeastConnections) == 3
    ensures Ordinal(StrategyRandom) == 4 && Ordinal(StrategyLeastLatency) == 5
  {
  }

  /** The constructor functions the table refers to. */
  datatype Constructor =
    | NewBasicBalancer
    | NewRoundRobinBalancer
    | NewLeastLatencyBalancer
    | NewLeastConnectionsBalancer

  /** `BalancerMetadata`. */
  datatype Metadata = Metadata(balancerName: string, strategyName: string, ctor: Constructor)

  /** The constructor named after a strategy that has a balancer of its
      own. */
  function Namesake(s: Strategy): Constructor
    requires s != StrategyWeightedRoundRobin && s != StrategyRandom
  {
    match s
    case StrategyBasic => NewBasicBalancer
    case StrategyRoundRobin => NewRoundRobinBalancer
    case StrategyLeastConnections => NewLeastConnectionsBalancer
    case StrategyLeastLatency => NewLeastLatencyBalancer
  }

  /** `StrategyBalancerMap`, entry for entry. */
  function StrategyBalancerMap(): map<Strategy, Metadata>
  {
    map[
      StrategyBasic := Metadata("Basic Balancer", "Basic Strategy", NewBasicBalancer),
      StrategyRoundRobin := Metadata("RoundRobin Balancer", "RoundRobin Strategy", NewRoundRobinBalancer),
      StrategyLeastLatency := Metadata("LeastLatency Balancer", "LeastLatency Strategy", NewLeastLatencyBalancer),
      StrategyLeastConnections :=
        Metadata("LeastConnections Balancer", "LeastConnections Strategy", NewLeastLatencyBalancer)
    ]
  }

  /** The table covers exactly four strategies, and the least-connections
      and least-latency entries share one constructor. */
  lemma TableShape()
    ensures StrategyBalancerMap().Keys ==
      {StrategyBasic, StrategyRoundRobin, StrategyLeastLatency, StrategyLeastConnections}
    ensures StrategyWeightedRoundRobin !in StrategyBalancerMap() && StrategyRandom !in StrategyBalancerMap()
    ensures StrategyBalancerMap()[StrategyLeastConnections].ctor == NewLeastLatencyBalancer
    ensures StrategyBalancerMap()[StrategyLeastLatency].ctor == NewLeastLatencyBalancer
  {
  }

  /** Every entry holds the constructor named after its strategy, except
      that the least-connections entry holds the least-latency one. */
  lemma TableNaming(s: Strategy)
    requires s in StrategyBalancerMap()
    ensures StrategyBalancerMap()[s].ctor == Namesake(s) <==> s != StrategyLeastConnections
    ensures s == StrategyLeastConnections ==> StrategyBalancerMap()[s].ctor == Namesake(StrategyLeastLatency)
  {
  }

  /** Exactly the weighted round-robin and random strategies have no entry. */
  lemma MissingEntries(s: Strategy)
    ensures s !in StrategyBalancerMap() <==> s == StrategyWeightedRoundRobin || s == StrategyRandom
  {
    match s
    case StrategyBasic =>
    case StrategyRoundRobin =>
    case StrategyWeightedRoundRobin =>
    case StrategyLeastConnections =>
    case StrategyRandom =>
    case StrategyLeastLatency =>
  }

  /** The balancer kinds, each with its pool (a round-robin balancer also
      has its cursor). */
  datatype Balancer =
    | BasicBalancer(pool: seq<Backend>)
    | RoundRobinBalancer(pool: seq<Backend>, runIndex: nat)
    | LeastConnectionsBalancer(pool: seq<Backend>)
    | LeastLatencyBalancer(pool: seq<Backend>)

  /** What each constructor builds: the least-latency and least-connections
      constructors both return a basic balancer with an empty pool. */
  function Construct(c: Constructor): (b: Balancer)
    ensures b.pool == []
    ensures c == NewLeastLatencyBalancer || c == NewLeastConnectionsBalancer ==> b == BasicBalancer([])
  {
    match c
    case NewBasicBalancer => BasicBalancer([])
    case NewRoundRobinBalancer => RoundRobinBalancer([], 0)
    case NewLeastLatencyBalancer => BasicBalancer([])
    case NewLeastConnectionsBalancer => BasicBalancer([])
  }

  /** Calling the constructor of a missing table entry: a nil function. */
  datatype ConstructError = NilConstructor

  /** `NewBalancer`: look the strategy up and call its constructor. A
      missing entry yields a zero `BalancerMetadata`, whose nil constructor
      cannot be called. The least-connections and least-latency strategies
      both yield a basic balancer. */
  function NewBalancer(s: Strategy): (r: Result<Balancer, ConstructError>)
    ensures r.Failure? <==> s == StrategyWeightedRoundRobin || s == StrategyRandom
    ensures s == StrategyLeastConnections || s == StrategyLeastLatency ==> r == Success(BasicBalancer([]))
    ensures s == StrategyBasic ==> r == Success(BasicBalancer([]))
    ensures s == StrategyRoundRobin ==> r == Success(RoundRobinBalancer([], 0))
  {
    var table := StrategyBalancerMap();
    TableShape();
    MissingEntries(s);
    if s in table then Success(Construct(table[s].ctor)) else Failure(NilConstructor)
  }

  /** The balancer can be asked for a server: a round-robin balancer indexes
      its pool unconditionally. */
  predicate Selectable(b: Balancer)
  {
    b.RoundRobinBalancer? ==> |b.pool| > 0
  }

  /** `NextServer` of each kind. Selection changes no backend (only the
      round-robin cursor moves); the result is nil exactly when no backend
      is healthy; a returned backend is healthy except for the
      least-connections kind, whose minimum ignores health; the basic kind
      returns the first healthy backend. */
  function NextServer(b: Balancer): (r: (Balancer, Option<nat>))
    requires Selectable(b)
    ensures r.0.pool == b.pool
    ensures r.1.None? <==> NoneHealthy(b.pool)
    ensures r.1.Some? ==> r.1.value < |b.pool|
    ensures r.1.Some? && !b.LeastConnectionsBalancer? ==> b.pool[r.1.value].healthy
    ensures r.1.Some? && b.BasicBalancer? ==> FirstHealthy(b.pool, r.1.value)
    ensures !b.RoundRobinBalancer? ==> r.0 == b
    ensures b.RoundRobinBalancer? && r.1.Some? ==>
      r.0 == RoundRobinBalancer(b.pool, r.1.value) && RoundRobin.FirstHealthyAhead(b.pool, b.runIndex, r.1.value)
  {
    match b
    case BasicBalancer(pool) => (b, Basic.NextServer(pool))
    case LeastConnectionsBalancer(pool) => (b, LeastConnections.NextServer(pool))
    case LeastLatencyBalancer(pool) => (b, LeastLatency.NextServer(pool))
    case RoundRobinBalancer(pool, runIndex) =>
      var p := RoundRobin.NextServer(pool, runIndex);
      (RoundRobinBalancer(pool, p.runIndex), p.server)
  }

  /** `Serve` of each kind, handed the backend `NextServer` chose. The
      least-connections and least-latency balancers forward to that backend.
      The basic balancer (basic.go) and the round-robin balancer take no
      backend: they select again, which for round robin moves the cursor a
      second time. Only the round-robin cursor changes. */
  function Serve(b: Balancer, server: nat, req: Request): (r: (Balancer, Dispatch))
    requires Selectable(b) && server < |b.pool|
    ensures r.0.pool == b.pool && Selectable(r.0)
    ensures !b.RoundRobinBalancer? ==> r.0 == b
    ensures r.1.NoHealthyUpstream? <==> NoneHealthy(b.pool) && (b.BasicBalancer? || b.RoundRobinBalancer?)
    ensures r.1.Forward? ==> exists t: nat :: t < |b.pool| && r.1.request == UpdateRequest(req, b.pool[t].endpoint)
    ensures b.RoundRobinBalancer? ==> r.0.RoundRobinBalancer?
    ensures b.RoundRobinBalancer? && r.1.Forward? ==>
      && RoundRobin.FirstHealthyAhead(b.pool, b.runIndex, r.0.runIndex)
      && r.1.request == UpdateRequest(req, b.pool[r.0.runIndex].endpoint)
  {
    match b
    case BasicBalancer(pool) => (b, Basic.Serve(pool, req))
    case LeastConnectionsBalancer(pool) => (b, Forward(UpdateRequest(req, pool[server].endpoint)))
    case LeastLatencyBalancer(pool) => (b, Forward(UpdateRequest(req, pool[server].endpoint)))
    case RoundRobinBalancer(pool, runIndex) =>
      var (cursor, d) := RoundRobin.Serve(pool, runIndex, req);
      (RoundRobinBalancer(pool, cursor), d)
  }

  /** Except for round robin, the request goes to the backend that was
      chosen; for the basic balancer that is because its second selection
      finds the same first healthy backend. */
  lemma ServeTargetsChosen(b: Balancer, i: nat, req: Request)
    requires Selectable(b) && i < |b.pool|
    requires b.BasicBalancer? ==> FirstHealthy(b.pool, i)
    ensures !b.RoundRobinBalancer? ==> Serve(b, i, req) == (b, Forward(UpdateRequest(req, b.pool[i].endpoint)))
  {
    if b.BasicBalancer? {
      var j := Basic.NextServer(b.pool).value;
      Basic.FirstHealthyUnique(b.pool, i, j);
    }
  }

  /** The round-robin balancer forwards to a different backend from the
      one chosen for the request: with every backend healthy and at least
      two of them, `Serve` lands one position further on. */
  lemma RoundRobinServesAnother(pool: seq<Backend>, runIndex: nat, req: Request)
    requires |pool| >= 2 && runIndex < |pool|
    requires forall j :: 0 <= j < |pool| ==> pool[j].healthy
    ensures var (b1, pick) := NextServer(RoundRobinBalancer(pool, runIndex));
      && pick == Some(RoundRobin.Increment(runIndex, |pool|))
      && var (b2, d) := Serve(b1, pick.value, req);
      && b2.runIndex == RoundRobin.Increment(pick.value, |pool|)
      && b2.runIndex != pick.value
      && d == Forward(UpdateRequest(req, pool[b2.runIndex].endpoint))
  {
  }

  /** `RegisterServers` of each kind: every one has a pointer receiver and
      compares the whole URL string, so the partially grown pool is kept. */
  function RegisterServers(b: Balancer, batch: seq<Backend>): (r: (Balancer, bool))
    ensures Registered(b.pool, batch, WholeUrl, Registration(r.0.pool, r.1))
    ensures Unique(b.pool, WholeUrl) ==> Unique(r.0.pool, WholeUrl)
    ensures r.0 == b.(pool := r.0.pool)
  {
    var reg := Register(b.pool, batch, WholeUrl);
    if Unique(b.pool, WholeUrl) then
      RegisterKeepsUnique(b.pool, batch, WholeUrl);
      (b.(pool := reg.pool), reg.failed)
    else
      (b.(pool := reg.pool), reg.failed)
  }

  /** The receiver of each kind's `DeregisterServer`: basic.go and
      balancers/roundRobin.go use a value receiver, the least-connections
      and least-latency balancers a pointer receiver. */
  function DeregisterReceiver(b: Balancer): Receiver
  {
    if b.LeastConnectionsBalancer? || b.LeastLatencyBalancer? then ByPointer else ByValue
  }

  /** `DeregisterServer` of each kind: an error always; the matching
      backend is removed only for the pointer-receiver kinds, while the
      value-receiver kinds keep their length and show the last backend in
      the matching slot. */
  function DeregisterServer(b: Balancer, target: Backend): (r: (Balancer, bool))
    requires PathMatches(b.pool, target.endpoint.path) <= 1
    ensures r.1
    ensures forall m :: 0 <= m < |b.pool| && b.pool[m].endpoint.path == target.endpoint.path ==>
      |r.0.pool| == (if b.LeastConnectionsBalancer? || b.LeastLatencyBalancer? then |b.pool| - 1 else |b.pool|)
    ensures (forall j :: 0 <= j < |b.pool| ==> b.pool[j].endpoint.path != target.endpoint.path) ==> r.0 == b
    ensures forall m :: 0 <= m < |b.pool| && b.pool[m].endpoint.path == target.endpoint.path ==>
      forall j :: 0 <= j < |r.0.pool| ==> r.0.pool[j] == if j == m then b.pool[|b.pool| - 1] else b.pool[j]
    ensures r.0 == b.(pool := r.0.pool)
  {
    var d := Deregister(b.pool, target, DeregisterReceiver(b));
    (b.(pool := d.pool), d.failed)
  }

  /** Whatever is registered, a balancer built for the least-connections or
      least-latency strategy answers with the first healthy backend. */
  lemma StrategyBuildsBasic(s: Strategy, batch: seq<Backend>)
    requires s == StrategyLeastConnections || s == StrategyLeastLatency
    ensures var b := RegisterServers(NewBalancer(s).value, batch).0;
      b.BasicBalancer? && NextServer(b).1 == Basic.NextServer(b.pool)
  {
  }

  /** balancers.go promises that the least-connections strategy picks the
      server with the fewest active connections. As built, a busy first
      server is chosen over an idle second one. */
  lemma FewestConnectionsNotHonoured(busy: Backend, idle: Backend)
    requires busy.healthy && busy.connections == 7
    requires idle.healthy && idle.connections == 0
    requires UrlString(busy.endpoint) != UrlString(idle.endpoint)
    ensures var b := RegisterServers(NewBalancer(StrategyLeastConnections).value, [busy, idle]).0;
      && b.pool == [busy, idle]
      && NextServer(b).1 == Some(0)
      && b.pool[1].connections < b.pool[0].connections
  {
    var pool := [busy, idle];
    assert NewBalancer(StrategyLeastConnections).value == BasicBalancer([]);
    assert Unique(pool, WholeUrl);
    RegisterFreshBatch([], pool, WholeUrl);
    assert [] + pool == pool;
    assert FirstHealthy(pool, 0);
  }

  /** balancers.go promises that the least-latency strategy picks the server
      with the lowest latency. As built, a slow first server is chosen over
      a fast second one. */
  lemma LowestLatencyNotHonoured(slow: Backend, fast: Backend)
    requires slow.healthy && slow.latency == 900
    requires fast.healthy && fast.latency == 5
    requires UrlString(slow.endpoint) != UrlString(fast.endpoint)
    ensures var b := RegisterServers(NewBalancer(StrategyLeastLatency).value, [slow, fast]).0;
      && b.pool == [slow, fast]
      && NextServer(b).1 == Some(0)
      && b.pool[1].latency < b.pool[0].latency
  {
    var pool := [slow, fast];
    assert NewBalancer(StrategyLeastLatency).value == BasicBalancer([]);
    assert Unique(pool, WholeUrl);
    RegisterFreshBatch([], pool, WholeUrl);
    assert [] + pool == pool;
    assert FirstHealthy(pool, 0);
  }
}

=== FILE: basic.dfy ===
/** basic.go: the basic balancer sends every request to the first healthy
    backend in registration order. */
module Basic {
  import opened Wrappers
  import opened Backends
  import opened Requests

  /** `NextServer`: the position of the first healthy backend, or nil when
      no backend is healthy. It only reads the pool. */
  function NextServer(pool: seq<Backend>): (r: Option<nat>)
    ensures r.None? <==> NoneHealthy(pool)
    ensures r.Some? ==> FirstHealthy(pool, r.value)
  {
    ScanHealthy(pool, 0)
  }

  /** `Serve`: with no healthy backend, fail with "no healthy upstream" and
      dispatch nothing; otherwise forward the request, rewritten towards the
      first healthy backend's endpoint. */
  function Serve(pool: seq<Backend>, req: Request): (r: Dispatch)
    ensures r.NoHealthyUpstream? <==> NoneHealthy(pool)
    ensures r.NoHealthyUpstream? ==> r.message == "no healthy upstream"
    ensures r.Forward? ==> exists i: nat :: FirstHealthy(pool, i) && r.request == UpdateRequest(req, pool[i].endpoint)
  {
    match NextServer(pool)
    case None => NoHealthyUpstream("no healthy upstream")
    case Some(i) => Forward(UpdateRequest(req, pool[i].endpoint))
  }

  /** Only one position can be the first healthy one, so the basic choice
      is determined by the health flags alone. */
  lemma FirstHealthyUnique(pool: seq<Backend>, i: nat, j: nat)
    requires FirstHealthy(pool, i) && FirstHealthy(pool, j)
    ensures i == j
  {
  }
}

=== FILE: least_connections.dfy ===
/** leastConnections.go: the least-connections balancer, as written. It
    checks that some backend is healthy, but then takes the minimum over
    the WHOLE pool, healthy or not. */
module LeastConnections {
  import opened Wrappers
  import opened Backends
  import opened Slices

  /** The comparator handed to `MinFunc`: the two backends' counters. */
  function ByConnections(): (Backend, Backend) -> int
  {
    (a: Backend, b: Backend) => Compare(a.connections as int, b.connections as int)
  }

  /** A backend's in-flight counter, as a number. */
  function Connections(): Backend -> int
  {
    (b: Backend) => b.connections as int
  }

  /** The comparator orders backends by their counters. */
  lemma ByConnectionsIsKeyed()
    ensures forall a, b :: ByConnections()(a, b) == Compare(Connections()(a), Connections()(b))
  {
  }

  /** `NextServer`: nil when no backend is healthy; otherwise the earliest
      backend of least connection count over all registered backends.
      Counters are only read. */
  function NextServer(pool: seq<Backend>): (r: Option<nat>)
    ensures r.None? <==> NoneHealthy(pool)
    ensures r.Some? ==> r.value < |pool|
    ensures r.Some? ==> forall j :: 0 <= j < |pool| ==> pool[r.value].connections as int <= pool[j].connections as int
    ensures r.Some? ==> forall j :: 0 <= j < r.value ==> pool[r.value].connections as int < pool[j].connections as int
  {
    var healthy := Filter(Positions(|pool|), HealthyAt(pool));
    HealthyPositionsEmpty(pool);
    if |healthy| == 0 then
      None
    else
      ByConnectionsIsKeyed();
      MinFuncFirstLeast(pool, ByConnections(), Connections());
      var m := MinFunc(pool, ByConnections());
      assert forall j :: 0 <= j < |pool| ==> Connections()(pool[m]) <= Connections()(pool[j]);
      Some(m)
  }

  /** Because the minimum runs over the unfiltered pool, an unhealthy
      backend with fewer connections is chosen over a healthy one. */
  lemma MayPickUnhealthy(idle: Backend, busy: Backend)
    requires !idle.healthy && idle.connections == 0
    requires busy.healthy && busy.connections == 3
    ensures NextServer([idle, busy]) == Some(0)
    ensures ![idle, busy][0].healthy
  {
    var pool := [idle, busy];
    assert HealthyAt(pool)(1);
    assert !NoneHealthy(pool);
  }
}

=== FILE: least_latency.dfy ===
/** leastLatency.go: the least-latency balancer, as written. Its comparator
    compares a backend's latency with ITSELF, so it never reports "less"
    and `MinFunc` keeps the first healthy backend. */
module LeastLatency {
  import opened Wrappers
  import opened Backends
  import opened Slices
  import Basic

  /** The latency of the backend at position `i`. */
  function LatencyAt(pool: seq<Backend>, i: nat): int
  {
    if i < |pool| then pool[i].latency else 0
  }

  /** The comparator handed to `MinFunc`: both sides read the FIRST
      argument's latency. */
  function SelfCompare(pool: seq<Backend>): (nat, nat) -> int
  {
    (a: nat, b: nat) => Compare(LatencyAt(pool, a), LatencyAt(pool, a))
  }

  /** The comparator answers 0 for every pair of backends. */
  lemma SelfCompareIsZero(pool: seq<Backend>, a: nat, b: nat)
    ensures SelfCompare(pool)(a, b) == 0
  {
  }

  /** `NextServer`: nil when no backend is healthy; the only healthy backend
      when there is one; otherwise `MinFunc` over the healthy backends with
      the self-comparison. In every case the result is the first healthy
      backend in registration order. */
  function NextServer(pool: seq<Backend>): (r: Option<nat>)
    ensures r.None? <==> NoneHealthy(pool)
    ensures r.Some? ==> FirstHealthy(pool, r.value)
  {
    var healthy := Filter(Positions(|pool|), HealthyAt(pool));
    HealthyPositionsEmpty(pool);
    if |healthy| == 0 then
      None
    else
      var first := Basic.NextServer(pool).value;
      FilterHead(Positions(|pool|), HealthyAt(pool), first);
      if |healthy| == 1 then
        Some(healthy[0])
      else
        MinFuncNeverMoves(healthy, SelfCompare(pool));
        Some(healthy[MinFunc(healthy, SelfCompare(pool))])
  }

  /** With exactly one healthy backend, that backend is returned. */
  lemma SingleHealthyShortcut(pool: seq<Backend>, i: nat)
    requires i < |pool| && pool[i].healthy
    requires forall j :: 0 <= j < |pool| && j != i ==> !pool[j].healthy
    ensures NextServer(pool) == Some(i)
  {
  }

  /** As written, the least-latency choice is the basic choice. */
  lemma SameAsBasic(pool: seq<Backend>)
    ensures NextServer(pool) == Basic.NextServer(pool)
  {
  }

  /** A later healthy backend with a far lower latency is not chosen. */
  lemma IgnoresLatency(slow: Backend, fast: Backend)
    requires slow.healthy && slow.latency == 900
    requires fast.healthy && fast.latency == 5
    ensures NextServer([slow, fast]) == Some(0)
    ensures [slow, fast][1].latency < [slow, fast][0].latency
  {
    assert FirstHealthy([slow, fast], 0);
  }
}

=== FILE: legacy_basic.dfy ===
/** balancers/basic.go: the older basic balancer. Backends are stored by
    value, duplicates are detected by URL path alone, every method has a
    value receiver, and `Serve` forwards the request without rewriting it. */
module LegacyBasic {
  import opened Wrappers
  import opened Backends
  import opened Requests
  import opened Registry
  import Slices

  /** `NextServer`: a copy of the first healthy backend (the address of the
      range variable, not of the stored element), or nil when none is
      healthy. Changes made through the copy never reach the pool. */
  function NextServer(pool: seq<Backend>): (r: Option<Backend>)
    ensures r.None? <==> NoneHealthy(pool)
    ensures r.Some? ==> exists i: nat :: FirstHealthy(pool, i) && r.value == pool[i]
  {
    match ScanHealthy(pool, 0)
    case None => None
    case Some(i) => Some(pool[i])
  }

  /** `Serve`: refuse with "No healthy Upstream." when nothing is healthy;
      otherwise hand the request to the client exactly as received. The
      chosen backend is not used and no host rewrite happens. */
  function Serve(pool: seq<Backend>, req: Request): (r: Dispatch)
    ensures r.NoHealthyUpstream? <==> NoneHealthy(pool)
    ensures r.NoHealthyUpstream? ==> r.message == "No healthy Upstream."
    ensures r.Forward? ==> r.request == req
  {
    match NextServer(pool)
    case None => NoHealthyUpstream("No healthy Upstream.")
    case Some(_) => Forward(req)
  }

  /** `RegisterServers` with a value receiver: the error is reported when
      some server's path clashes with the pool or with an earlier server of
      the batch, but the appends happen on a copy, so the caller's pool is
      what it was. */
  function RegisterServers(pool: seq<Backend>, batch: seq<Backend>): (r: Registration)
    ensures r.pool == pool
    ensures r.failed <==> exists k :: 0 <= k < |batch| && Taken(pool + batch[..k], PathOnly, batch[k].endpoint.path)
  {
    var copy := Register(pool, batch, PathOnly);
    if copy.failed then
      var k := |copy.pool| - |pool|;
      assert Taken(pool + batch[..k], PathOnly, batch[k].endpoint.path);
      Registration(pool, true)
    else
      Registration(pool, false)
  }

  /** `DeRegisterServer` with a value receiver: the caller's pool keeps its
      length; the matching slot, if any, now holds the last backend; an
      error is returned in every case. */
  function DeRegisterServer(pool: seq<Backend>, target: Backend): (r: Deregistration)
    requires PathMatches(pool, target.endpoint.path) <= 1
    ensures r.failed
    ensures |r.pool| == |pool|
    ensures forall j :: 0 <= j < |pool| && pool[j].endpoint.path != target.endpoint.path ==> r.pool[j] == pool[j]
    ensures forall m :: 0 <= m < |pool| && pool[m].endpoint.path == target.endpoint.path ==>
      r.pool[m] == pool[|pool| - 1]
  {
    var r := Deregister(pool, target, ByValue);
    match ScanPath(pool, target.endpoint.path, 0)
    case None => r
    case Some(m) =>
      OnlyMatch(pool, target.endpoint.path, m);
      r
  }

  // The entry point's three servers, registered under both keys. The
  // path-only key is this module's; the whole-URL key is the one every
  // balancer of the current generation uses (basic.go:48). The lemmas from
  // here to the end of the module are the contrast between the two, kept
  // side by side; `DistinctUrlsRegister` and its helpers are about the
  // current generation.

  /** The endpoints of the three servers the entry point registers: they
      differ only in port, and all have the empty path. */
  predicate EntryPointServers(a: Backend, b: Backend, c: Backend)
  {
    && a.endpoint == Url("http", "localhost:8000", "", "")
    && b.endpoint == Url("http", "localhost:8001", "", "")
    && c.endpoint == Url("http", "localhost:8003", "", "")
  }

  /** All three of the entry point's servers lie on one path, so
      deregistering any of them from the pool they form meets three matches:
      the case in which the deregistration loop indexes past the shrunken
      slice, and which the deregistration model excludes. */
  lemma EntryPointPathsCoincide(a: Backend, b: Backend, c: Backend)
    requires EntryPointServers(a, b, c)
    ensures PathMatches([a, b, c], a.endpoint.path) == 3
    ensures PathMatches([a, b, c], b.endpoint.path) == 3
    ensures PathMatches([a, b, c], c.endpoint.path) == 3
  {
    var on := PathIs("");
    assert on(a) && on(b) && on(c);
    assert [a, b, c][..2] == [a, b] && [a, b][..1] == [a] && [a][..0] == [];
    assert Slices.Filter([a], on) == [a];
    assert Slices.Filter([a, b], on) == [a, b];
    assert Slices.Filter([a, b, c], on) == [a, b, c];
  }

  /** Compared by path, the entry point's second server is already taken:
      only the first is kept and an error comes back. */
  lemma SamePathServersCollide(a: Backend, b: Backend, c: Backend)
    requires EntryPointServers(a, b, c)
    ensures Register([], [a, b, c], PathOnly) == Registration([a], true)
  {
    assert [a, b, c][1..] == [b, c];
    assert !Taken([], PathOnly, Key(PathOnly, a));
    assert [] + [a] == [a];
    assert Register([], [a, b, c], PathOnly) == Register([a], [b, c], PathOnly);
    assert Taken([a], PathOnly, Key(PathOnly, b));
  }

  /** Compared by the whole URL, as the current generation does, all three
      are registered. */
  lemma DistinctUrlsRegister(a: Backend, b: Backend, c: Backend)
    requires EntryPointServers(a, b, c)
    ensures Register([], [a, b, c], WholeUrl) == Registration([a, b, c], false)
  {
    EntryPointUrlsDiffer(a, b, c);
    ThreeDistinctRegister(a, b, c);
  }

  /** Three backends with three different URLs all join an empty pool. */
  lemma ThreeDistinctRegister(a: Backend, b: Backend, c: Backend)
    requires Key(WholeUrl, a) != Key(WholeUrl, b)
    requires Key(WholeUrl, a) != Key(WholeUrl, c)
    requires Key(WholeUrl, b) != Key(WholeUrl, c)
    ensures Register([], [a, b, c], WholeUrl) == Registration([a, b, c], false)
  {
    var batch := [a, b, c];
    forall i, j | 0 <= i < j < |batch|
      ensures Key(WholeUrl, batch[i]) != Key(WholeUrl, batch[j])
    {
      assert i == 0 || i == 1;
      assert batch[i] == (if i == 0 then a else b);
      assert batch[j] == (if j == 1 then b else c);
    }
    RegisterFreshBatch([], batch, WholeUrl);
    assert [] + [a, b, c] == [a, b, c];
  }

  /** The entry point's three servers print as three different URLs. */
  lemma EntryPointUrlsDiffer(a: Backend, b: Backend, c: Backend)
    requires EntryPointServers(a, b, c)
    ensures Key(WholeUrl, a) != Key(WholeUrl, b)
    ensures Key(WholeUrl, a) != Key(WholeUrl, c)
    ensures Key(WholeUrl, b) != Key(WholeUrl, c)
  {
    assert a.endpoint.host[13] != b.endpoint.host[13];
    assert a.endpoint.host[13] != c.endpoint.host[13];
    assert b.endpoint.host[13] != c.endpoint.host[13];
    HostDistinguishes(a.endpoint, b.endpoint);
    HostDistinguishes(a.endpoint, c.endpoint);
    HostDistinguishes(b.endpoint, c.endpoint);
  }
}

=== FILE: legacy_monitor.dfy ===
/** monitor/main.go: the older health monitor. Its retry loop is the one of
    monitor.go, but a probe records only the health flag: this generation
    has no latency. */
module LegacyMonitor {
  import opened Backends
  import opened Probing

  /** The transport used for probing; it only selects the HTTP client. */
  datatype Protocol = ProtocolHTTP11 | ProtocolHTTP2

  /** `Config` of the older monitor. */
  datatype Config = Config(maxAttempts: int, timeout: int, protocol: Protocol)

  /** `Fire`: run the retry loop and store the verdict. The health flag is
      the only field written. */
  method Fire(server: Backend, config: Config, outcomes: seq<ProbeOutcome>) returns (probed: Backend, attempts: nat)
    requires config.maxAttempts <= |outcomes|
    ensures probed == server.(healthy := probed.healthy)
    ensures probed.healthy <==> SucceedsWithin(config.maxAttempts, outcomes)
    ensures attempts <= Budget(config.maxAttempts)
    ensures probed.healthy ==> attempts >= 1 && ValidateResponse(outcomes[attempts - 1])
    ensures probed.healthy ==> forall k :: 0 <= k < attempts - 1 ==> !ValidateResponse(outcomes[k])
    ensures !probed.healthy ==> attempts == Budget(config.maxAttempts)
  {
    var healthy;
    healthy, attempts := RunAttempts(config.maxAttempts, outcomes);
    probed := server.(healthy := healthy);
  }

  /** `CheckHealth`: one probe for each listed server, server `i` seeing the
      outcomes `outcomes[i]`. */
  method CheckHealth(pool: seq<Backend>, config: Config, outcomes: seq<seq<ProbeOutcome>>)
    returns (probed: seq<Backend>)
    requires |outcomes| == |pool|
    requires forall i :: 0 <= i < |pool| ==> config.maxAttempts <= |outcomes[i]|
    ensures |probed| == |pool|
    ensures forall i :: 0 <= i < |pool| ==> probed[i] == pool[i].(healthy := probed[i].healthy)
    ensures forall i :: 0 <= i < |pool| ==> (probed[i].healthy <==> SucceedsWithin(config.maxAttempts, outcomes[i]))
  {
    probed := [];
    var i := 0;
    while i < |pool|
      invariant 0 <= i <= |pool|
      invariant |probed| == i
      invariant forall j :: 0 <= j < i ==> probed[j] == pool[j].(healthy := probed[j].healthy)
      invariant forall j :: 0 <= j < i ==> (probed[j].healthy <==> SucceedsWithin(config.maxAttempts, outcomes[j]))
    {
      var server, _ := Fire(pool[i], config, outcomes[i]);
      probed := probed + [server];
      i := i + 1;
    }
  }

  /** With no attempts allowed, every probed server ends unhealthy. */
  lemma NoAttemptsMeansUnhealthy(maxAttempts: int, outcomes: seq<ProbeOutcome>)
    requires maxAttempts <= 0
    ensures !SucceedsWithin(maxAttempts, outcomes)
  {
  }
}

=== FILE: monitor.dfy ===
/** monitor.go: the current health monitor. A round probes every server the
    balancer lists and writes back each one's health flag and latency. The
    probes of a round run concurrently in the source; each touches only its
    own server, so the round is modelled as one probe per server in list
    order. The measured latency is an input. */
module Monitor {
  import opened Backends
  import opened Probing

  /** The transport used for probing; it only selects the HTTP client. */
  datatype Protocol = ProtocolHTTP11 | ProtocolHTTP2

  /** `MonitorConfig`. The timeout bounds each attempt inside the client and
      shows up here only through the outcomes. */
  datatype MonitorConfig = MonitorConfig(maxAttempts: int, timeout: int, protocol: Protocol)

  /** `Fire`: run the retry loop, then store the verdict and the elapsed
      milliseconds on the server. Nothing else of the server is written;
      its connection counter is only read. */
  method Fire(server: Backend, config: MonitorConfig, outcomes: seq<ProbeOutcome>, elapsedMillis: int)
    returns (probed: Backend, attempts: nat)
    requires config.maxAttempts <= |outcomes|
    ensures probed == server.(healthy := probed.healthy, latency := elapsedMillis)
    ensures probed.healthy <==> SucceedsWithin(config.maxAttempts, outcomes)
    ensures attempts <= Budget(config.maxAttempts)
    ensures probed.healthy ==> attempts >= 1 && ValidateResponse(outcomes[attempts - 1])
    ensures probed.healthy ==> forall k :: 0 <= k < attempts - 1 ==> !ValidateResponse(outcomes[k])
    ensures !probed.healthy ==> attempts == Budget(config.maxAttempts)
  {
    var healthy;
    healthy, attempts := RunAttempts(config.maxAttempts, outcomes);
    probed := server.(healthy := healthy, latency := elapsedMillis);
  }

  /** `CheckHealth`: one probe for each listed server, server `i` seeing the
      outcomes `outcomes[i]` and the elapsed time `elapsed[i]`. */
  method CheckHealth(pool: seq<Backend>, config: MonitorConfig, outcomes: seq<seq<ProbeOutcome>>, elapsed: seq<int>)
    returns (probed: seq<Backend>, attempts: seq<nat>)
    requires |outcomes| == |pool| && |elapsed| == |pool|
    requires forall i :: 0 <= i < |pool| ==> config.maxAttempts <= |outcomes[i]|
    ensures |probed| == |pool| && |attempts| == |pool|
    ensures forall i :: 0 <= i < |pool| ==> probed[i] == pool[i].(healthy := probed[i].healthy, latency := elapsed[i])
    ensures forall i :: 0 <= i < |pool| ==> (probed[i].healthy <==> SucceedsWithin(config.maxAttempts, outcomes[i]))
    ensures forall i :: 0 <= i < |pool| ==> attempts[i] <= Budget(config.maxAttempts)
  {
    probed := [];
    attempts := [];
    var i := 0;
    while i < |pool|
      invariant 0 <= i <= |pool|
      invariant |probed| == i && |attempts| == i
      invariant forall j :: 0 <= j < i ==> probed[j] == pool[j].(healthy := probed[j].healthy, latency := elapsed[j])
      invariant forall j :: 0 <= j < i ==> (probed[j].healthy <==> SucceedsWithin(config.maxAttempts, outcomes[j]))
      invariant forall j :: 0 <= j < i ==> attempts[j] <= Budget(config.maxAttempts)
    {
      var server, n := Fire(pool[i], config, outcomes[i], elapsed[i]);
      probed := probed + [server];
      attempts := attempts + [n];
      i := i + 1;
    }
  }

  /** A server answering 500 on every attempt ends the round unhealthy after
      using all its attempts. */
  lemma AlwaysFailingIsUnhealthy(outcomes: seq<ProbeOutcome>)
    requires |outcomes| == 3
    requires forall k :: 0 <= k < 3 ==> outcomes[k] == Status(500)
    ensures !SucceedsWithin(3, outcomes)
  {
  }

  /** A server failing once and then answering 200 ends the round healthy. */
  lemma SecondAttemptSucceeds(outcomes: seq<ProbeOutcome>)
    requires |outcomes| == 3 && outcomes[0] == Status(500) && outcomes[1] == Status(200)
    ensures SucceedsWithin(3, outcomes)
  {
    assert ValidateResponse(outcomes[1]);
  }
}

=== FILE: probing.dfy ===
/** The per-probe logic shared, line for line, by monitor.go and
    monitor/main.go: judge one probe response, and retry up to the
    configured number of attempts, stopping at the first success. The
    transport is replaced by the sequence of outcomes it would deliver. */
module Probing {

  /** What one HEAD request to a backend delivers: a transport error or a
      response status. */
  datatype ProbeOutcome = TransportError(message: string) | Status(code: int)

  /** `validateResponse`: an attempt fails on a transport error or a status
      above 299, and succeeds otherwise. */
  function ValidateResponse(o: ProbeOutcome): (ok: bool)
    ensures o.TransportError? ==> !ok
    ensures o.Status? ==> (ok <==> o.code < 300)
  {
    match o
    case TransportError(_) => false
    case Status(code) => !(code > 299)
  }

  /** Some outcome among the first `maxAttempts` is a success. */
  predicate SucceedsWithin(maxAttempts: int, outcomes: seq<ProbeOutcome>)
  {
    exists k :: 0 <= k < maxAttempts && k < |outcomes| && ValidateResponse(outcomes[k])
  }

  /** The most attempts a probe makes: `maxAttempts`, or none when it is not
      positive. */
  function Budget(maxAttempts: int): nat
  {
    if maxAttempts > 0 then maxAttempts else 0
  }

  /** The retry loop of `Fire`: attempt while fewer than `maxAttempts`
      attempts were made and none succeeded. The verdict is healthy exactly
      when a success lies within the first `maxAttempts` outcomes; the loop
      then stops right after the first success, and otherwise uses the
      whole budget. */
  method RunAttempts(maxAttempts: int, outcomes: seq<ProbeOutcome>) returns (healthy: bool, attempts: nat)
    requires maxAttempts <= |outcomes|
    ensures attempts <= Budget(maxAttempts)
    ensures healthy <==> SucceedsWithin(maxAttempts, outcomes)
    ensures healthy ==> attempts >= 1 && ValidateResponse(outcomes[attempts - 1])
    ensures healthy ==> forall k :: 0 <= k < attempts - 1 ==> !ValidateResponse(outcomes[k])
    ensures !healthy ==> attempts == Budget(maxAttempts)
  {
    attempts := 0;
    healthy := false;
    while attempts < maxAttempts && !healthy
      invariant attempts <= Budget(maxAttempts)
      invariant healthy ==> attempts >= 1 && ValidateResponse(outcomes[attempts - 1])
      invariant healthy ==> forall k :: 0 <= k < attempts - 1 ==> !ValidateResponse(outcomes[k])
      invariant !healthy ==> forall k :: 0 <= k < attempts ==> !ValidateResponse(outcomes[k])
      decreases maxAttempts - attempts
    {
      healthy := ValidateResponse(outcomes[attempts]);
      attempts := attempts + 1;
    }
  }
}

=== FILE: proxy.dfy ===
/** main.go: the HTTP handler of the proxy. It asks the balancer for a
    backend, counts the request against that backend while it is in flight,
    has the balancer forward the request, and streams the upstream response
    back in chunks of at most 1024 bytes. The network is replaced by its
    observable outcomes: the upstream answer, the sequence of reads of its
    body, and whether each write to the client succeeds. */
module Proxy {
  import opened Wrappers
  import opened Backends
  import opened Requests
  import opened Balancers
  import RoundRobin

  /** The size of the copy buffer. */
  const BufferSize: nat := 1024

  /** What one `Read` of the upstream body reports besides its bytes. */
  datatype ReadError = NoError | EndOfFile | ReadFailure(message: string)

  /** One `Read` of the upstream body: the bytes placed in the buffer and
      the error returned with them. */
  datatype Read = Read(data: seq<bv8>, err: ReadError)

  /** Reads fit the buffer, and the body eventually reports an error or
      end of file, as every `io.Reader` of a response body does. */
  predicate WellFormedBody(body: seq<Read>)
  {
    && (forall k :: 0 <= k < |body| ==> |body[k].data| <= BufferSize)
    && exists k :: 0 <= k < |body| && body[k].err != NoError
  }

  /** The `w`-th write to the client succeeds; writes beyond the listed
      outcomes succeed. */
  predicate WriteSucceeds(writeOk: seq<bool>, w: nat)
  {
    w >= |writeOk| || writeOk[w]
  }

  /** Read `s` is the first to report an error or end of file. */
  predicate Stops(body: seq<Read>, s: nat)
  {
    && s < |body|
    && body[s].err != NoError
    && forall k :: 0 <= k < s ==> body[k].err == NoError
  }

  /** The chunks the first `k` reads ask to write: the data of each read
      that returned any, in order. */
  function Chunks(body: seq<Read>, k: nat): (r: seq<seq<bv8>>)
    requires k <= |body|
  {
    if k == 0 then []
    else Chunks(body, k - 1) + (if |body[k - 1].data| > 0 then [body[k - 1].data] else [])
  }

  /** All bytes of the first `k` reads, in order. */
  function Payload(body: seq<Read>, k: nat): seq<bv8>
    requires k <= |body|
  {
    if k == 0 then [] else Payload(body, k - 1) + body[k - 1].data
  }

  /** The bytes of a sequence of chunks, in order. */
  function Concat(chunks: seq<seq<bv8>>): seq<bv8>
  {
    if |chunks| == 0 then [] else Concat(chunks[..|chunks| - 1]) + chunks[|chunks| - 1]
  }

  /** Writing the chunks delivers exactly the payload: skipping empty reads
      loses no byte. */
  lemma {:induction false} ChunksPayload(body: seq<Read>, k: nat)
    requires k <= |body|
    ensures Concat(Chunks(body, k)) == Payload(body, k)
  {
    if k > 0 {
      ChunksPayload(body, k - 1);
      var prev := Chunks(body, k - 1);
      if |body[k - 1].data| > 0 {
        var cs := prev + [body[k - 1].data];
        assert cs[..|cs| - 1] == prev;
      } else {
        assert prev + [] == prev;
      }
    }
  }

  /** Later reads never take chunks away. */
  lemma {:induction false} ChunksGrow(body: seq<Read>, k: nat, k': nat)
    requires k <= k' <= |body|
    ensures |Chunks(body, k)| <= |Chunks(body, k')|
    decreases k' - k
  {
    if k < k' {
      ChunksGrow(body, k, k' - 1);
    }
  }

  /** How the copy loop ends: the body was drained, a write to the client
      failed, or a read failed. */
  datatype CopyEnd = Drained | WriteFailed | ReadFailed

  /** The outcome `(chunks, end, consumed)` is what the copy loop produces:
      it read `consumed` times, all but the last read reported no error, the
      chunks written are the data of the reads that returned any, and every
      write counted in `chunks` succeeded. A drained or failed read ends
      after delivering the data that came with it; a failed write ends at
      the read whose data it was writing. */
  ghost predicate Copied(body: seq<Read>, writeOk: seq<bool>, chunks: seq<seq<bv8>>, end: CopyEnd, consumed: nat)
  {
    && 1 <= consumed <= |body|
    && (forall k :: 0 <= k < consumed - 1 ==> body[k].err == NoError)
    && (forall c :: 0 <= c < |chunks| ==> WriteSucceeds(writeOk, c))
    && match end
       case Drained => body[consumed - 1].err == EndOfFile && chunks == Chunks(body, consumed)
       case ReadFailed => body[consumed - 1].err.ReadFailure? && chunks == Chunks(body, consumed)
       case WriteFailed =>
         && |body[consumed - 1].data| > 0
         && !WriteSucceeds(writeOk, |chunks|)
         && chunks == Chunks(body, consumed - 1)
  }

  /** The body was fully relayed: the first read to stop reports end of
      file, and every write up to and including its data succeeds. */
  ghost predicate CleanCopy(body: seq<Read>, writeOk: seq<bool>)
  {
    exists s: nat :: Stops(body, s) && body[s].err == EndOfFile
      && forall c :: 0 <= c < |Chunks(body, s + 1)| ==> WriteSucceeds(writeOk, c)
  }

  /** Only one read can be the first to stop. */
  lemma StopsUnique(body: seq<Read>, s: nat, t: nat)
    requires Stops(body, s) && Stops(body, t)
    ensures s == t
  {
  }

  /** While every read so far reported no error, a stopping read lies
      ahead. */
  lemma StopAhead(body: seq<Read>, i: nat)
    requires WellFormedBody(body)
    requires forall k :: 0 <= k < i && k < |body| ==> body[k].err == NoError
    ensures i < |body|
  {
  }

  /** A copy ends drained exactly when the body was fully relayed. */
  lemma DrainedIffClean(body: seq<Read>, writeOk: seq<bool>, chunks: seq<seq<bv8>>, end: CopyEnd, consumed: nat)
    requires Copied(body, writeOk, chunks, end, consumed)
    ensures end == Drained <==> CleanCopy(body, writeOk)
  {
    var last := consumed - 1;
    assert Stops(body, last) || end == WriteFailed;
    match end
    case Drained =>
      assert Stops(body, last);
    case ReadFailed =>
      forall s: nat | Stops(body, s)
        ensures body[s].err != EndOfFile
      {
        StopsUnique(body, s, last);
      }
    case WriteFailed =>
      forall s: nat | Stops(body, s)
        ensures |chunks| < |Chunks(body, s + 1)|
      {
        assert last <= s;
        ChunksGrow(body, last + 1, s + 1);
      }
  }

  /** The state of the copy loop before read `i`: every earlier read
      reported no error, the chunks written are those of the earlier reads,
      each fits the buffer, and every write succeeded. */
  ghost predicate Progress(body: seq<Read>, writeOk: seq<bool>, chunks: seq<seq<bv8>>, i: nat)
  {
    && i < |body|
    && (forall k :: 0 <= k < i ==> body[k].err == NoError)
    && chunks == Chunks(body, i)
    && (forall c :: 0 <= c < |chunks| ==> 0 < |chunks[c]| <= BufferSize)
    && (forall c :: 0 <= c < |chunks| ==> WriteSucceeds(writeOk, c))
  }

  /** Everything the copy loop promises: the outcome is a copy in the sense
      of `Copied`; every chunk is non-empty and fits the buffer; the client
      received exactly the bytes of the reads whose data was written; and
      the copy ended drained exactly when the body was fully relayed. */
  ghost predicate CopyOutcome(body: seq<Read>, writeOk: seq<bool>, chunks: seq<seq<bv8>>, end: CopyEnd, consumed: nat)
  {
    && Copied(body, writeOk, chunks, end, consumed)
    && (forall c :: 0 <= c < |chunks| ==> 0 < |chunks[c]| <= BufferSize)
    && Concat(chunks) == Payload(body, if end == WriteFailed then consumed - 1 else consumed)
    && (end == Drained <==> CleanCopy(body, writeOk))
  }

  /** The loop stops at a read that reports end of file or an error, after
      writing that read's data: the outcome is a copy of the first `i + 1`
      reads, drained exactly on end of file. */
  lemma EndsAtStop(body: seq<Read>, writeOk: seq<bool>, chunks: seq<seq<bv8>>, i: nat)
    requires WellFormedBody(body)
    requires Progress(body, writeOk, chunks, i) && body[i].err != NoError
    requires WriteSucceeds(writeOk, |chunks|) || |body[i].data| == 0
    ensures var end := if body[i].err == EndOfFile then Drained else ReadFailed;
      CopyOutcome(body, writeOk, chunks + (if |body[i].data| > 0 then [body[i].data] else []), end, i + 1)
  {
    var end := if body[i].err == EndOfFile then Drained else ReadFailed;
    var written := chunks + (if |body[i].data| > 0 then [body[i].data] else []);
    assert written == Chunks(body, i + 1);
    assert Copied(body, writeOk, written, end, i + 1);
    ChunksPayload(body, i + 1);
    DrainedIffClean(body, writeOk, written, end, i + 1);
  }

  /** The loop gives up when writing the data of read `i` fails: the
      outcome carries the chunks of the reads before it. */
  lemma EndsAtWrite(body: seq<Read>, writeOk: seq<bool>, chunks: seq<seq<bv8>>, i: nat)
    requires Progress(body, writeOk, chunks, i) && |body[i].data| > 0
    requires !WriteSucceeds(writeOk, |chunks|)
    ensures CopyOutcome(body, writeOk, chunks, WriteFailed, i + 1)
  {
    assert Copied(body, writeOk, chunks, WriteFailed, i + 1);
    ChunksPayload(body, i);
    DrainedIffClean(body, writeOk, chunks, WriteFailed, i + 1);
  }

  /** A read that reports no error, once its data is written, leaves the
      loop ready for the next read. */
  lemma StepOn(body: seq<Read>, writeOk: seq<bool>, chunks: seq<seq<bv8>>, i: nat)
    requires WellFormedBody(body)
    requires Progress(body, writeOk, chunks, i) && body[i].err == NoError
    requires WriteSucceeds(writeOk, |chunks|) || |body[i].data| == 0
    ensures Progress(body, writeOk, chunks + (if |body[i].data| > 0 then [body[i].data] else []), i + 1)
  {
    StopAhead(body, i + 1);
  }

  /** The copy loop of `handleProxy`: read into the buffer; write what was
      read, giving up on the first failed write; stop on end of file after
      writing, and on any other read error. */
  method CopyBody(body: seq<Read>, writeOk: seq<bool>) returns (chunks: seq<seq<bv8>>, end: CopyEnd, consumed: nat)
    requires WellFormedBody(body)
    ensures CopyOutcome(body, writeOk, chunks, end, consumed)
  {
    chunks := [];
    var i := 0;
    StopAhead(body, 0);
    while true
      invariant Progress(body, writeOk, chunks, i)
      decreases |body| - i
    {
      var rd := body[i];
      if |rd.data| > 0 && !WriteSucceeds(writeOk, |chunks|) {
        EndsAtWrite(body, writeOk, chunks, i);
        end, consumed := WriteFailed, i + 1;
        break;
      }
      if rd.err != NoError {
        EndsAtStop(body, writeOk, chunks, i);
        end := if rd.err == EndOfFile then Drained else ReadFailed;
        chunks := chunks + (if |rd.data| > 0 then [rd.data] else []);
        consumed := i + 1;
        break;
      }
      StepOn(body, writeOk, chunks, i);
      chunks := chunks + (if |rd.data| > 0 then [rd.data] else []);
      i := i + 1;
    }
  }

  /** What the HTTP client returns for the forwarded request: a transport
      error, or a response with its status, its Content-Type header and the
      reads of its body. */
  datatype Upstream =
    | UpstreamError(message: string)
    | UpstreamResponse(status: int, contentType: string, body: seq<Read>)

  /** What the client receives as the response body: an error message, or
      the chunks streamed from upstream with how the copy ended. */
  datatype Reply =
    | Message(text: string)
    | Streamed(chunks: seq<seq<bv8>>, end: CopyEnd, consumed: nat)

  /** One pass of the handler: the balancer afterwards, the status and
      headers sent to the client, the reply body, the request handed to the
      HTTP client (if any), and the chosen backend's counter while the
      request was in flight (if one was chosen). */
  datatype Exchange = Exchange(
    balancer: Balancer,
    status: int,
    headers: map<string, string>,
    reply: Reply,
    dispatched: Option<Request>,
    inFlight: Option<bv32>)

  /** The deferred `Add(^uint32(0))` undoes the `Add(1)`: adding all ones
      wraps round to subtracting one. The increment itself wraps at 2^32. */
  lemma CounterRestored(c: bv32)
    ensures (c + 1) + !0 == c
    ensures c == 0xFFFF_FFFF ==> c + 1 == 0
  {
  }

  /** `connections.Add(delta)` on one backend: 32-bit wrap-around. */
  function Bump(server: Backend, delta: bv32): Backend
  {
    server.(connections := server.connections + delta)
  }

  /** `connections.Add(1)` on backend `i`. */
  function Raise(pool: seq<Backend>, i: nat): seq<Backend>
    requires i < |pool|
  {
    pool[i := Bump(pool[i], 1)]
  }

  /** `connections.Add(^uint32(0))` on backend `i`. */
  function Lower(pool: seq<Backend>, i: nat): seq<Backend>
    requires i < |pool|
  {
    pool[i := Bump(pool[i], !0)]
  }

  /** Raising a counter touches no health flag. */
  lemma RaiseKeepsHealth(pool: seq<Backend>, i: nat)
    requires i < |pool|
    ensures |Raise(pool, i)| == |pool|
    ensures NoneHealthy(Raise(pool, i)) <==> NoneHealthy(pool)
    ensures forall j :: FirstHealthy(pool, j) ==> FirstHealthy(Raise(pool, i), j)
  {
    assert forall j :: 0 <= j < |pool| ==> Raise(pool, i)[j].healthy == pool[j].healthy;
  }

  /** Lowering a raised counter gives back the backend exactly. */
  lemma BumpBack(server: Backend)
    ensures Bump(Bump(server, 1), !0) == server
  {
    CounterRestored(server.connections);
  }

  /** Lowering a raised counter gives back the pool exactly. */
  lemma LowerUndoesRaise(pool: seq<Backend>, i: nat)
    requires i < |pool|
    ensures Lower(Raise(pool, i), i) == pool
  {
    BumpBack(pool[i]);
    assert Lower(Raise(pool, i), i) == pool[i := Bump(Bump(pool[i], 1), !0)];
  }

  /** The in-flight part of the handler for the chosen backend `i`: raise
      its counter, let the balancer serve the request, and lower the counter
      again on the way out. Returns the balancer afterwards, the dispatch,
      and the counter value while the request was in flight. With a healthy
      backend present, `Serve` always forwards; the pool ends as it began. */
  function ServeCounted(b: Balancer, i: nat, req: Request): (r: (Balancer, Dispatch, bv32))
    requires Selectable(b) && i < |b.pool| && !NoneHealthy(b.pool)
    requires b.BasicBalancer? ==> FirstHealthy(b.pool, i)
    ensures r.0.pool == b.pool && Selectable(r.0)
    ensures r.1.Forward?
    ensures r.2 == b.pool[i].connections + 1
    ensures !b.RoundRobinBalancer? ==> r.0 == b && r.1 == Forward(UpdateRequest(req, b.pool[i].endpoint))
    ensures b.RoundRobinBalancer? ==>
      && r.0.RoundRobinBalancer?
      && RoundRobin.FirstHealthyAhead(b.pool, b.runIndex, r.0.runIndex)
      && r.1 == Forward(UpdateRequest(req, b.pool[r.0.runIndex].endpoint))
  {
    RaiseKeepsHealth(b.pool, i);
    LowerUndoesRaise(b.pool, i);
    var raised := b.(pool := Raise(b.pool, i));
    var served := Serve(raised, i, req);
    ServeTargetsChosen(raised, i, req);
    RaisedTarget(b, i, req);
    (served.0.(pool := Lower(served.0.pool, i)), served.1, raised.pool[i].connections)
  }

  /** Raising a counter does not move where the round-robin balancer
      forwards: the raised pool has the same health flags and endpoints. */
  lemma RaisedTarget(b: Balancer, i: nat, req: Request)
    requires Selectable(b) && i < |b.pool|
    ensures var served := Serve(b.(pool := Raise(b.pool, i)), i, req);
      b.RoundRobinBalancer? && served.1.Forward? ==>
        && RoundRobin.FirstHealthyAhead(b.pool, b.runIndex, served.0.runIndex)
        && served.1.request == UpdateRequest(req, b.pool[served.0.runIndex].endpoint)
  {
    var raised := b.(pool := Raise(b.pool, i));
    var served := Serve(raised, i, req);
    if b.RoundRobinBalancer? && served.1.Forward? {
      assert forall j :: 0 <= j < |b.pool| ==> raised.pool[j].healthy == b.pool[j].healthy;
      RoundRobin.SameHealthSameTarget(raised.pool, b.pool, b.runIndex, served.0.runIndex);
      assert raised.pool[served.0.runIndex].endpoint == b.pool[served.0.runIndex].endpoint;
    }
  }

  /** The tail of the handler once the balancer forwarded the request:
      the X-Processing-Time header is set first; a transport error is
      answered 502 with its message; a response has its status and
      Content-Type passed through and its body streamed. */
  method Respond(balancer: Balancer, dispatched: Request, inFlight: bv32, upstream: Upstream,
                 writeOk: seq<bool>, elapsed: string)
    returns (x: Exchange)
    requires upstream.UpstreamResponse? ==> WellFormedBody(upstream.body)
    ensures x.balancer == balancer && x.dispatched == Some(dispatched) && x.inFlight == Some(inFlight)
    ensures "X-Processing-Time" in x.headers && x.headers["X-Processing-Time"] == elapsed
    ensures upstream.UpstreamError? ==>
      && x.status == 502
      && x.reply == Message(upstream.message)
      && x.headers == map["X-Processing-Time" := elapsed]
    ensures upstream.UpstreamResponse? ==>
      && x.status == upstream.status
      && x.headers == map["X-Processing-Time" := elapsed, "Content-Type" := upstream.contentType]
      && x.reply.Streamed?
      && CopyOutcome(upstream.body, writeOk, x.reply.chunks, x.reply.end, x.reply.consumed)
  {
    var headers := map["X-Processing-Time" := elapsed];
    match upstream
    case UpstreamError(message) =>
      x := Exchange(balancer, 502, headers, Message(message), Some(dispatched), Some(inFlight));
    case UpstreamResponse(status, contentType, body) =>
      var chunks, end, consumed := CopyBody(body, writeOk);
      x := Exchange(balancer, status, headers["Content-Type" := contentType],
        Streamed(chunks, end, consumed), Some(dispatched), Some(inFlight));
  }

  /** What the handler promises once backend `i` of `b` was chosen: the
      pool ends as it began; the chosen backend's counter was one higher
      while the request was in flight; a request was forwarded, to the
      chosen backend unless the balancer is round robin, whose second
      selection moves the cursor on to the first healthy backend ahead and
      forwards there; the X-Processing-Time header is set; a transport
      error is answered 502 with its message and no other header; a
      response has its status and Content-Type passed through, no other
      header, and its body copied. */
  ghost predicate ServedChosen(b: Balancer, i: nat, req: Request, upstream: Upstream, writeOk: seq<bool>,
                               elapsed: string, x: Exchange)
    requires i < |b.pool|
  {
    && x.balancer.pool == b.pool && Selectable(x.balancer)
    && x.inFlight == Some(b.pool[i].connections + 1)
    && x.dispatched.Some?
    && "X-Processing-Time" in x.headers && x.headers["X-Processing-Time"] == elapsed
    && (!b.RoundRobinBalancer? ==> x.balancer == b && x.dispatched == Some(UpdateRequest(req, b.pool[i].endpoint)))
    && (b.RoundRobinBalancer? ==>
         && x.balancer.RoundRobinBalancer?
         && RoundRobin.FirstHealthyAhead(b.pool, b.runIndex, x.balancer.runIndex)
         && x.dispatched == Some(UpdateRequest(req, b.pool[x.balancer.runIndex].endpoint)))
    && (upstream.UpstreamError? ==>
         && x.status == 502
         && x.reply == Message(upstream.message)
         && x.headers == map["X-Processing-Time" := elapsed])
    && (upstream.UpstreamResponse? ==>
         && x.status == upstream.status
         && x.headers == map["X-Processing-Time" := elapsed, "Content-Type" := upstream.contentType]
         && x.reply.Streamed?
         && CopyOutcome(upstream.body, writeOk, x.reply.chunks, x.reply.end, x.reply.consumed))
  }

  /** The handler once backend `i` was chosen: count the request against
      it while the balancer serves it, then respond. */
  method ServeChosen(b: Balancer, i: nat, req: Request, upstream: Upstream, writeOk: seq<bool>, elapsed: string)
    returns (x: Exchange)
    requires Selectable(b) && i < |b.pool| && !NoneHealthy(b.pool)
    requires b.BasicBalancer? ==> FirstHealthy(b.pool, i)
    requires upstream.UpstreamResponse? ==> WellFormedBody(upstream.body)
    ensures x.balancer.pool == b.pool && Selectable(x.balancer) && x.inFlight.Some?
    ensures ServedChosen(b, i, req, upstream, writeOk, elapsed, x)
  {
    var served := ServeCounted(b, i, req);
    x := Respond(served.0, served.1.request, served.2, upstream, writeOk, elapsed);
  }

  /** `handleProxy`: with no backend selected, answer 502 "no healthy
      upstream" and touch nothing else; otherwise serve the chosen backend
      with the balancer as selection left it. Either way the pool ends as
      it began. */
  method HandleProxy(b: Balancer, req: Request, upstream: Upstream, writeOk: seq<bool>, elapsed: string)
    returns (x: Exchange)
    requires Selectable(b)
    requires upstream.UpstreamResponse? ==> WellFormedBody(upstream.body)
    ensures x.balancer.pool == b.pool && Selectable(x.balancer)
    ensures x.inFlight.None? <==> NoneHealthy(b.pool)
    ensures NextServer(b).1.None? ==>
      x == Exchange(NextServer(b).0, 502, map[], Message("no healthy upstream"), None, None)
    ensures NextServer(b).1.Some? ==>
      ServedChosen(NextServer(b).0, NextServer(b).1.value, req, upstream, writeOk, elapsed, x)
  {
    var selection := NextServer(b);
    if selection.1.None? {
      x := Exchange(selection.0, 502, map[], Message("no healthy upstream"), None, None);
    } else {
      x := ServeChosen(selection.0, selection.1.value, req, upstream, writeOk, elapsed);
    }
  }
}

=== FILE: registry.dfy ===
/** Pool membership: `RegisterServers` and `DeregisterServer`, which every
    balancer of both generations implements with the same loop. They differ
    only in what identifies a backend (the full URL string in the current
    generation, the URL path in balancers/basic.go) and in whether the
    method has a value or a pointer receiver. */
module Registry {
  import opened Wrappers
  import opened Backends
  import opened Slices

  /** What registration compares to detect a duplicate. */
  datatype Identity = WholeUrl | PathOnly

  function Key(id: Identity, b: Backend): string
  {
    match id
    case WholeUrl => UrlString(b.endpoint)
    case PathOnly => b.endpoint.path
  }

  /** Some backend of the pool already has this key. */
  predicate Taken(pool: seq<Backend>, id: Identity, key: string)
  {
    exists j :: 0 <= j < |pool| && Key(id, pool[j]) == key
  }

  /** No two backends of the pool share a key. */
  predicate Unique(pool: seq<Backend>, id: Identity)
  {
    forall i, j :: 0 <= i < j < |pool| ==> Key(id, pool[i]) != Key(id, pool[j])
  }

  /** The pool after `RegisterServers`, and whether it returned an error. */
  datatype Registration = Registration(pool: seq<Backend>, failed: bool)

  /** `r` is what registering `batch` into `pool` may produce: the pool
      followed by the longest prefix of the batch whose every server had a
      fresh key when it was checked (against the pool and the servers of the
      batch appended before it); an error exactly when that prefix stops
      short, at a server whose key was taken. */
  ghost predicate Registered(pool: seq<Backend>, batch: seq<Backend>, id: Identity, r: Registration)
  {
    && |pool| <= |r.pool| <= |pool| + |batch|
    && r.pool == pool + batch[..|r.pool| - |pool|]
    && (r.failed <==> |r.pool| < |pool| + |batch|)
    && (r.failed ==> Taken(r.pool, id, Key(id, batch[|r.pool| - |pool|])))
    && (forall k :: 0 <= k < |r.pool| - |pool| ==> !Taken(pool + batch[..k], id, Key(id, batch[k])))
  }

  /** `RegisterServers`: for each new server in argument order, scan the
      current pool (which already holds the earlier servers of the batch)
      for its key; on a clash return the error at once, otherwise append.
      The servers accepted before the clash stay registered. */
  function Register(pool: seq<Backend>, batch: seq<Backend>, id: Identity): (r: Registration)
    ensures Registered(pool, batch, id, r)
    decreases |batch|
  {
    if |batch| == 0 then
      assert pool + batch[..0] == pool;
      Registration(pool, false)
    else if Taken(pool, id, Key(id, batch[0])) then
      assert pool + batch[..0] == pool;
      Registration(pool, true)
    else
      var r := Register(pool + [batch[0]], batch[1..], id);
      RegisterStep(pool, batch, id, r);
      r
  }

  /** One accepted server: what registering the rest of the batch into the
      grown pool produces is what registering the whole batch produces. */
  lemma RegisterStep(pool: seq<Backend>, batch: seq<Backend>, id: Identity, r: Registration)
    requires |batch| > 0 && !Taken(pool, id, Key(id, batch[0]))
    requires Registered(pool + [batch[0]], batch[1..], id, r)
    ensures Registered(pool, batch, id, r)
  {
    var pool' := pool + [batch[0]];
    var n := |r.pool| - |pool'|;
    ShiftPrefix(pool, batch, n + 1);
    forall k | 0 <= k < n + 1
      ensures !Taken(pool + batch[..k], id, Key(id, batch[k]))
    {
      if k == 0 {
        assert pool + batch[..0] == pool;
      } else {
        ShiftPrefix(pool, batch, k);
        assert batch[k] == batch[1..][k - 1];
      }
    }
    if r.failed {
      assert batch[|r.pool| - |pool|] == batch[1..][n];
    }
  }

  /** The pool with the first `k` servers of the batch is the grown pool
      with the first `k - 1` of the rest. */
  lemma ShiftPrefix(pool: seq<Backend>, batch: seq<Backend>, k: nat)
    requires 1 <= k <= |batch|
    ensures pool + batch[..k] == (pool + [batch[0]]) + batch[1..][..k - 1]
  {
    assert batch[..k] == [batch[0]] + batch[1..][..k - 1];
  }

  /** Registration keeps the pool free of duplicate keys, whether or not it
      fails part-way. */
  lemma {:induction false} RegisterKeepsUnique(pool: seq<Backend>, batch: seq<Backend>, id: Identity)
    requires Unique(pool, id)
    ensures Unique(Register(pool, batch, id).pool, id)
    decreases |batch|
  {
    if |batch| > 0 && !Taken(pool, id, Key(id, batch[0])) {
      var pool' := pool + [batch[0]];
      assert Unique(pool', id);
      RegisterKeepsUnique(pool', batch[1..], id);
    }
  }

  /** A batch whose keys are fresh and pairwise distinct is registered in
      full, in argument order, without error. */
  lemma {:induction false} RegisterFreshBatch(pool: seq<Backend>, batch: seq<Backend>, id: Identity)
    requires forall k :: 0 <= k < |batch| ==> !Taken(pool, id, Key(id, batch[k]))
    requires Unique(batch, id)
    ensures Register(pool, batch, id) == Registration(pool + batch, false)
    decreases |batch|
  {
    if |batch| > 0 {
      var pool' := pool + [batch[0]];
      forall k | 0 <= k < |batch[1..]|
        ensures !Taken(pool', id, Key(id, batch[1..][k]))
      {
        assert batch[1..][k] == batch[k + 1];
      }
      assert Unique(batch[1..], id) by {
        forall i, j | 0 <= i < j < |batch[1..]|
          ensures Key(id, batch[1..][i]) != Key(id, batch[1..][j])
        {
          assert batch[1..][i] == batch[i + 1] && batch[1..][j] == batch[j + 1];
        }
      }
      RegisterFreshBatch(pool', batch[1..], id);
      assert !Taken(pool, id, Key(id, batch[0]));
      assert Register(pool, batch, id) == Register(pool', batch[1..], id);
      assert pool' + batch[1..] == pool + batch;
    }
  }

  /** The second of two same-key servers in one batch is refused even though
      the pool did not hold the key before: the first was appended before
      the second was checked. Only the first stays. */
  lemma BatchDuplicateRejected(pool: seq<Backend>, a: Backend, b: Backend, id: Identity)
    requires !Taken(pool, id, Key(id, a))
    requires Key(id, a) == Key(id, b)
    ensures Register(pool, [a, b], id) == Registration(pool + [a], true)
  {
    var r := Register(pool, [a, b], id);
    assert Key(id, (pool + [a])[|pool|]) == Key(id, b);
    assert Taken(pool + [a], id, Key(id, [a, b][1]));
    assert [a, b][..1] == [a];
  }

  /** The backend matches the path a deregistration looks for. */
  function PathIs(path: string): Backend -> bool
  {
    (b: Backend) => b.endpoint.path == path
  }

  /** How many backends of the pool have this path. */
  function PathMatches(pool: seq<Backend>, path: string): nat
  {
    |Filter(pool, PathIs(path))|
  }

  /** With at most one backend on the path, a matching backend is the only
      one. */
  lemma OnlyMatch(pool: seq<Backend>, path: string, m: nat)
    requires PathMatches(pool, path) <= 1
    requires m < |pool| && pool[m].endpoint.path == path
    ensures forall j :: 0 <= j < |pool| && j != m ==> pool[j].endpoint.path != path
  {
    forall j | 0 <= j < |pool| && j != m
      ensures pool[j].endpoint.path != path
    {
      if pool[j].endpoint.path == path {
        var a, b := if j < m then j else m, if j < m then m else j;
        FilterTwo(pool, PathIs(path), a, b);
      }
    }
  }

  /** Two satisfying elements make a filter output of length two or more. */
  lemma FilterTwo<T>(s: seq<T>, p: T -> bool, a: nat, b: nat)
    requires a < b < |s| && p(s[a]) && p(s[b])
    ensures |Filter(s, p)| >= 2
  {
    assert s == s[..b] + s[b..];
    FilterConcat(s[..b], s[b..], p);
    assert s[..b][a] == s[a];
    FilterEmpty(s[..b], p);
    assert s[b..][0] == s[b];
    FilterEmpty(s[b..], p);
  }

  /** The Go receiver kind: a value receiver works on a copy of the slice
      header, so its truncation is lost, but its element writes land in the
      shared backing array. */
  datatype Receiver = ByValue | ByPointer

  /** The pool the caller sees after `DeregisterServer`, and whether it
      returned an error. */
  datatype Deregistration = Deregistration(pool: seq<Backend>, failed: bool)

  /** `DeregisterServer`: the backend whose URL path equals the target's path
      gets the last backend written over it and the slice is shortened by
      one; the method then returns an error whatever happened. With a value
      receiver the caller keeps the old length, so it sees the last backend
      twice. The loop ranges over the pool while shrinking it, which can
      index past the end when two backends share the path; the model
      requires at most one match. */
  function Deregister(pool: seq<Backend>, target: Backend, recv: Receiver): (r: Deregistration)
    requires PathMatches(pool, target.endpoint.path) <= 1
    ensures r.failed
    ensures (forall j :: 0 <= j < |pool| ==> pool[j].endpoint.path != target.endpoint.path) ==> r.pool == pool
    ensures forall m :: 0 <= m < |pool| && pool[m].endpoint.path == target.endpoint.path ==>
      && |r.pool| == (if recv == ByPointer then |pool| - 1 else |pool|)
      && (forall j :: 0 <= j < |r.pool| ==> r.pool[j] == if j == m then pool[|pool| - 1] else pool[j])
  {
    var path := target.endpoint.path;
    match ScanPath(pool, path, 0)
    case None => Deregistration(pool, true)
    case Some(m) =>
      OnlyMatch(pool, path, m);
      var swapped := pool[m := pool[|pool| - 1]];
      Deregistration(if recv == ByPointer then swapped[..|pool| - 1] else swapped, true)
  }

  /** The position of the first backend on `path`, scanning from `from`. */
  function ScanPath(pool: seq<Backend>, path: string, from: nat): (r: Option<nat>)
    requires from <= |pool|
    ensures r.None? <==> forall j :: from <= j < |pool| ==> pool[j].endpoint.path != path
    ensures r.Some? ==> from <= r.value < |pool| && pool[r.value].endpoint.path == path
    decreases |pool| - from
  {
    if from == |pool| then None
    else if pool[from].endpoint.path == path then Some(from)
    else ScanPath(pool, path, from + 1)
  }

  /** Writing the last element over position `m` and dropping the last
      slot removes exactly one occurrence of the element at `m`. */
  lemma SwapRemove(pool: seq<Backend>, m: nat)
    requires m < |pool|
    ensures multiset(pool[m := pool[|pool| - 1]][..|pool| - 1]) + multiset{pool[m]} == multiset(pool)
  {
    var n := |pool|;
    var r := pool[m := pool[n - 1]][..n - 1];
    if m == n - 1 {
      assert r == pool[..n - 1];
      assert pool == pool[..n - 1] + [pool[m]];
    } else {
      assert r == pool[..m] + [pool[n - 1]] + pool[m + 1..n - 1];
      assert pool == pool[..m] + [pool[m]] + pool[m + 1..n - 1] + [pool[n - 1]];
    }
  }

  /** Deregistering through a pointer receiver removes exactly the matching
      backend: no backend on that path is left, and every other backend is
      kept. */
  lemma DeregisterRemovesOne(pool: seq<Backend>, target: Backend, m: nat)
    requires PathMatches(pool, target.endpoint.path) <= 1
    requires m < |pool| && pool[m].endpoint.path == target.endpoint.path
    ensures var r := Deregister(pool, target, ByPointer);
      && (forall j :: 0 <= j < |r.pool| ==> r.pool[j].endpoint.path != target.endpoint.path)
      && multiset(r.pool) + multiset{pool[m]} == multiset(pool)
  {
    var r := Deregister(pool, target, ByPointer);
    OnlyMatch(pool, target.endpoint.path, m);
    assert r.pool == pool[m := pool[|pool| - 1]][..|pool| - 1];
    SwapRemove(pool, m);
  }
}

=== FILE: requests.dfy ===
/** The inbound request as far as the proxy touches it, the host/scheme
    rewrite of utils.go and balancers/utils.go (the two are the same code),
    and the outcome of a balancer's `Serve` guard. */
module Requests {
  import opened Backends

  /** The fields of an `http.Request` that the balancers read or write. */
  datatype Request = Request(
    verb: string,
    url: Url,
    host: string,
    requestUri: string,
    header: map<string, string>)

  /** `updateRequest`: point the request at `target` by copying its host
      and scheme into the request URL, and clear `RequestURI` (a client
      request must not carry one). Everything else is kept. Go mutates the
      request in place and returns the same pointer; here the updated value
      is returned. */
  function UpdateRequest(req: Request, target: Url): (r: Request)
    ensures r.url.host == target.host && r.url.scheme == target.scheme
    ensures r.requestUri == ""
    ensures r.url.path == req.url.path && r.url.rawQuery == req.url.rawQuery
    ensures r.verb == req.verb && r.host == req.host && r.header == req.header
  {
    req.(url := req.url.(host := target.host, scheme := target.scheme), requestUri := "")
  }

  /** Rewriting twice towards the same target is rewriting once. */
  lemma UpdateRequestIdempotent(req: Request, target: Url)
    ensures UpdateRequest(UpdateRequest(req, target), target) == UpdateRequest(req, target)
  {
  }

  /** Of two rewrites, the later target wins. */
  lemma UpdateRequestLastWins(req: Request, first: Url, second: Url)
    ensures UpdateRequest(UpdateRequest(req, first), second) == UpdateRequest(req, second)
  {
  }

  /** Only the target's host and scheme matter: its path and query never
      reach the request. */
  lemma UpdateRequestIgnoresTargetPath(req: Request, a: Url, b: Url)
    requires a.host == b.host && a.scheme == b.scheme
    ensures UpdateRequest(req, a) == UpdateRequest(req, b)
  {
  }

  /** What a balancer's `Serve` does before the transport call: refuse with
      a message, or hand a (possibly rewritten) request to the HTTP client. */
  datatype Dispatch = NoHealthyUpstream(message: string) | Forward(request: Request)
}

=== FILE: round_robin.dfy ===
/** balancers/roundRobin.go: the round-robin balancer. Its cursor is advanced
    BEFORE the health test, then advanced past unhealthy backends at most
    once per backend. */
module RoundRobin {
  import opened Wrappers
  import opened Backends
  import opened Requests

  /** `incrementCounter`: step the cursor, wrapping to 0 at the end of the
      pool. A cursor left beyond the end by a shrunken pool also comes back
      to 0. */
  function Increment(runIndex: nat, n: nat): (r: nat)
    ensures n > 0 ==> r < n
    ensures runIndex < n ==> r == (runIndex + 1) % n
    ensures runIndex >= n ==> r == 0
  {
    if runIndex + 1 >= n then 0 else runIndex + 1
  }

  /** The cursor after `k` advances from position `i`, for `i < n` and
      `k <= n`: the sum folded once into `[0, n)`. */
  function Advance(i: nat, k: nat, n: nat): nat
  {
    if i + k < n then i + k else i + k - n
  }

  /** Going round from position `i`, the first `d` backends met are all
      unhealthy. */
  predicate PassedUnhealthy(pool: seq<Backend>, i: nat, d: nat)
    requires i < |pool| && d <= |pool|
  {
    forall k :: 0 <= k < d ==> !pool[Advance(i, k, |pool|)].healthy
  }

  /** `t` is where selection from cursor `runIndex` lands: the first
      healthy backend going round from the advanced cursor, within one
      round. */
  ghost predicate FirstHealthyAhead(pool: seq<Backend>, runIndex: nat, t: nat)
    requires |pool| > 0
  {
    && t < |pool| && pool[t].healthy
    && exists d: nat :: (d < |pool| && PassedUnhealthy(pool, Increment(runIndex, |pool|), d)
      && t == Advance(Increment(runIndex, |pool|), d, |pool|))
  }

  /** Where selection lands depends on the health flags alone. */
  lemma SameHealthSameTarget(pool: seq<Backend>, pool': seq<Backend>, runIndex: nat, t: nat)
    requires |pool| == |pool'| > 0
    requires forall j :: 0 <= j < |pool| ==> pool[j].healthy == pool'[j].healthy
    requires FirstHealthyAhead(pool, runIndex, t)
    ensures FirstHealthyAhead(pool', runIndex, t)
  {
    var n := |pool|;
    var i := Increment(runIndex, n);
    var d: nat :| d < n && PassedUnhealthy(pool, i, d) && t == Advance(i, d, n);
    assert PassedUnhealthy(pool', i, d);
  }

  /** The skip loop: from cursor `i`, with `counter` advances already made,
      keep advancing while the backend under the cursor is unhealthy and
      fewer than `|pool|` advances were made. Returns the final cursor and
      the chosen backend, if it is healthy: the first healthy backend met
      going round from `i`. */
  function Skip(pool: seq<Backend>, i: nat, counter: nat): (r: (nat, Option<nat>))
    requires i < |pool| && counter <= |pool|
    ensures r.0 < |pool|
    ensures r.1.Some? ==> r.1.value == r.0 && pool[r.0].healthy
    ensures r.1.Some? ==>
      exists d: nat :: d <= |pool| - counter && PassedUnhealthy(pool, i, d) && r.0 == Advance(i, d, |pool|)
    ensures r.1.None? ==> r.0 == Advance(i, |pool| - counter, |pool|)
    ensures r.1.None? ==> forall k :: 0 <= k <= |pool| - counter ==> !pool[Advance(i, k, |pool|)].healthy
    decreases |pool| - counter
  {
    var n := |pool|;
    if !pool[i].healthy && counter < n then
      var i' := Increment(i, n);
      var r := Skip(pool, i', counter + 1);
      assert forall k :: 1 <= k <= n - counter ==> Advance(i, k, n) == Advance(i', k - 1, n);
      assert Advance(i, 0, n) == i;
      SkipShift(pool, i, counter, r.0, r.1.Some?);
      r
    else
      assert PassedUnhealthy(pool, i, 0) && Advance(i, 0, n) == i;
      (i, if pool[i].healthy then Some(i) else None)
  }

  /** One unhealthy backend at `i` moves the search one step on: a backend
      reached from the next position past unhealthy ones is reached from
      `i` past one more. */
  lemma SkipShift(pool: seq<Backend>, i: nat, counter: nat, c: nat, found: bool)
    requires i < |pool| && counter < |pool| && !pool[i].healthy
    requires found ==> exists d: nat :: (d <= |pool| - (counter + 1) && PassedUnhealthy(pool, Increment(i, |pool|), d)
      && c == Advance(Increment(i, |pool|), d, |pool|))
    ensures found ==>
      exists d: nat :: d <= |pool| - counter && PassedUnhealthy(pool, i, d) && c == Advance(i, d, |pool|)
  {
    if found {
      var n := |pool|;
      var i' := Increment(i, n);
      var d': nat :| d' <= n - (counter + 1) && PassedUnhealthy(pool, i', d') && c == Advance(i', d', n);
      forall k | 0 <= k < d' + 1
        ensures !pool[Advance(i, k, n)].healthy
      {
        if k > 0 {
          assert Advance(i, k, n) == Advance(i', k - 1, n);
        }
      }
      assert PassedUnhealthy(pool, i, d' + 1);
      assert c == Advance(i, d' + 1, n);
    }
  }

  /** A healthy backend reached past unhealthy ones is reached within one
      round: after a full round the cursor is back on the unhealthy start. */
  lemma WithinOneRound(pool: seq<Backend>, i: nat, c: nat)
    requires i < |pool| && c < |pool| && pool[c].healthy
    requires exists d: nat :: d <= |pool| && PassedUnhealthy(pool, i, d) && c == Advance(i, d, |pool|)
    ensures exists d: nat :: d < |pool| && PassedUnhealthy(pool, i, d) && c == Advance(i, d, |pool|)
  {
    var n := |pool|;
    var d: nat :| d <= n && PassedUnhealthy(pool, i, d) && c == Advance(i, d, n);
    assert Advance(i, 0, n) == Advance(i, n, n);
    assert d < n;
  }

  /** Two first-healthy-ahead distances from one start are the same, so the
      round-robin choice is determined by the cursor and the health flags. */
  lemma FirstAheadUnique(pool: seq<Backend>, i: nat, d1: nat, d2: nat)
    requires i < |pool| && d1 < |pool| && d2 < |pool|
    requires PassedUnhealthy(pool, i, d1) && pool[Advance(i, d1, |pool|)].healthy
    requires PassedUnhealthy(pool, i, d2) && pool[Advance(i, d2, |pool|)].healthy
    ensures d1 == d2
  {
  }

  /** From any start, `|pool|` advances pass over every position. */
  lemma AdvanceCovers(i: nat, t: nat, n: nat)
    requires i < n && t < n
    ensures exists k :: 0 <= k < n && Advance(i, k, n) == t
  {
    var k := if t >= i then t - i else t + n - i;
    assert Advance(i, k, n) == t;
  }

  /** The cursor after a call, and the backend it returned (nil if none). */
  datatype Pick = Pick(runIndex: nat, server: Option<nat>)

  /** `NextServer`: advance the cursor, then skip unhealthy backends. The
      result is nil exactly when no backend is healthy; otherwise it is a
      healthy backend and the cursor rests on it. When nil, the cursor has
      gone round once and rests one past where it started. A returned
      backend is the first healthy one met going round from the advanced
      cursor. The pool is indexed unconditionally, so it must not be empty. */
  function NextServer(pool: seq<Backend>, runIndex: nat): (r: Pick)
    requires |pool| > 0
    ensures r.runIndex < |pool|
    ensures r.server.None? <==> NoneHealthy(pool)
    ensures r.server.Some? ==> r.server.value == r.runIndex && pool[r.runIndex].healthy
    ensures r.server.Some? ==> exists d: nat :: (d < |pool| && PassedUnhealthy(pool, Increment(runIndex, |pool|), d)
      && r.runIndex == Advance(Increment(runIndex, |pool|), d, |pool|))
    ensures r.server.None? ==> r.runIndex == Increment(runIndex, |pool|)
  {
    var n := |pool|;
    var i := Increment(runIndex, n);
    var (cursor, server) := Skip(pool, i, 0);
    if server.None? then
      assert forall t :: 0 <= t < n ==> !pool[t].healthy by {
        forall t | 0 <= t < n
          ensures !pool[t].healthy
        {
          AdvanceCovers(i, t, n);
        }
      }
      Pick(cursor, server)
    else
      WithinOneRound(pool, i, cursor);
      Pick(cursor, server)
  }

  /** `Serve`: refuse with "no healthy upstream" when nothing is healthy;
      otherwise forward the request rewritten towards the chosen backend,
      the first healthy one going round from the advanced cursor. */
  function Serve(pool: seq<Backend>, runIndex: nat, req: Request): (r: (nat, Dispatch))
    requires |pool| > 0
    ensures r.0 < |pool|
    ensures r.1.NoHealthyUpstream? <==> NoneHealthy(pool)
    ensures r.1.NoHealthyUpstream? ==> r.1.message == "no healthy upstream"
    ensures r.1.Forward? ==> pool[r.0].healthy && r.1.request == UpdateRequest(req, pool[r.0].endpoint)
    ensures r.1.Forward? ==> exists d: nat :: (d < |pool| && PassedUnhealthy(pool, Increment(runIndex, |pool|), d)
      && r.0 == Advance(Increment(runIndex, |pool|), d, |pool|))
  {
    var p := NextServer(pool, runIndex);
    match p.server
    case None => (p.runIndex, NoHealthyUpstream("no healthy upstream"))
    case Some(i) => (p.runIndex, Forward(UpdateRequest(req, pool[i].endpoint)))
  }

  /** From a fresh balancer (cursor 0) the first call inspects position 1,
      so a healthy first backend is passed over. */
  lemma FreshBalancerStartsAtOne(pool: seq<Backend>)
    requires |pool| >= 2 && pool[0].healthy && pool[1].healthy
    ensures NextServer(pool, 0) == Pick(1, Some(1))
  {
  }

  /** An unhealthy backend is skipped rather than answered by the lowest
      healthy position: from cursor 0 over healthy, unhealthy, healthy, the
      call lands on position 2. */
  lemma SkipsToNextHealthy(a: Backend, b: Backend, c: Backend)
    requires a.healthy && !b.healthy && c.healthy
    ensures NextServer([a, b, c], 0) == Pick(2, Some(2))
  {
    assert Skip([a, b, c], 2, 1) == (2, Some(2));
    assert Skip([a, b, c], 1, 0) == (2, Some(2));
  }

  /** The answers of `k` consecutive calls starting from cursor `runIndex`. */
  function Run(pool: seq<Backend>, runIndex: nat, k: nat): (r: seq<Option<nat>>)
    requires |pool| > 0
    ensures |r| == k
    decreases k
  {
    if k == 0 then []
    else
      var p := NextServer(pool, runIndex);
      [p.server] + Run(pool, p.runIndex, k - 1)
  }

  /** With every backend healthy, each call advances the cursor by exactly
      one: call `j` returns position `runIndex + 1 + j`, wrapped. */
  lemma {:induction false} AllHealthyRotation(pool: seq<Backend>, runIndex: nat, k: nat)
    requires |pool| > 0 && runIndex < |pool| && k <= |pool|
    requires forall i :: 0 <= i < |pool| ==> pool[i].healthy
    ensures forall j :: 0 <= j < k ==> Run(pool, runIndex, k)[j] == Some(Advance(runIndex, j + 1, |pool|))
    decreases k
  {
    if k > 0 {
      var n := |pool|;
      var c := Increment(runIndex, n);
      assert NextServer(pool, runIndex) == Pick(c, Some(c));
      AllHealthyRotation(pool, c, k - 1);
      var r := Run(pool, runIndex, k);
      assert r == [Some(c)] + Run(pool, c, k - 1);
      forall j | 0 <= j < k
        ensures r[j] == Some(Advance(runIndex, j + 1, n))
      {
        if j > 0 {
          assert r[j] == Run(pool, c, k - 1)[j - 1];
          assert Advance(c, j, n) == Advance(runIndex, j + 1, n);
        }
      }
    }
  }

  /** With every backend healthy, any `|pool|` consecutive calls return every
      backend exactly once. */
  lemma FullRoundVisitsEachOnce(pool: seq<Backend>, runIndex: nat)
    requires |pool| > 0 && runIndex < |pool|
    requires forall i :: 0 <= i < |pool| ==> pool[i].healthy
    ensures forall t :: 0 <= t < |pool| ==> Some(t) in Run(pool, runIndex, |pool|)
    ensures forall j1, j2 :: 0 <= j1 < j2 < |pool| ==>
      Run(pool, runIndex, |pool|)[j1] != Run(pool, runIndex, |pool|)[j2]
  {
    var n := |pool|;
    var r := Run(pool, runIndex, n);
    AllHealthyRotation(pool, runIndex, n);
    forall t | 0 <= t < n
      ensures Some(t) in r
    {
      var j := if t > runIndex then t - runIndex - 1 else t + n - runIndex - 1;
      assert r[j] == Some(t);
    }
  }
}

=== FILE: slices.dfy ===
/** Generic slice helpers: the repository's own `Filter` (utils.go) and the
    standard library's `cmp.Compare` and `slices.MinFunc` that the
    least-connections and least-latency balancers call. */
module Slices {

  /** Three-way integer comparison, as Go's `cmp.Compare`. */
  function Compare(a: int, b: int): (r: int)
    ensures r == -1 || r == 0 || r == 1
    ensures r < 0 <==> a < b
    ensures r == 0 <==> a == b
  {
    if a < b then -1 else if a > b then 1 else 0
  }

  /** The positions 0 .. n-1 in order. A slice of pointers into a pool is
      modelled by the positions of the backends it points at. */
  function Positions(n: nat): (r: seq<nat>)
    ensures |r| == n
    ensures forall i :: 0 <= i < n ==> r[i] == i
  {
    if n == 0 then [] else Positions(n - 1) + [n - 1]
  }

  /** The elements of `s` that satisfy `p`, in their original order.
      Mirrors the loop that appends each accepted element at the end. */
  function Filter<T>(s: seq<T>, p: T -> bool): (r: seq<T>)
    ensures |r| <= |s|
    ensures forall i :: 0 <= i < |r| ==> p(r[i]) && r[i] in s
    ensures forall i :: 0 <= i < |s| && p(s[i]) ==> s[i] in r
    decreases |s|
  {
    if |s| == 0 then []
    else
      assert s == s[..|s| - 1] + [s[|s| - 1]];
      Filter(s[..|s| - 1], p) + (if p(s[|s| - 1]) then [s[|s| - 1]] else [])
  }

  /** Filtering a one-element slice keeps the element exactly when it
      satisfies the predicate. */
  lemma FilterSingleton<T>(x: T, p: T -> bool)
    ensures Filter([x], p) == if p(x) then [x] else []
  {
    assert [x][..0] == [];
  }

  /** Filter distributes over concatenation: together with FilterSingleton
      this says the output is exactly the order-preserving subsequence of
      the satisfying elements. */
  lemma {:induction false} FilterConcat<T>(a: seq<T>, b: seq<T>, p: T -> bool)
    ensures Filter(a + b, p) == Filter(a, p) + Filter(b, p)
    decreases |b|
  {
    if |b| == 0 {
      assert a + b == a;
    } else {
      var b' := b[..|b| - 1];
      var x := b[|b| - 1];
      assert (a + b)[..|a + b| - 1] == a + b';
      assert (a + b)[|a + b| - 1] == x;
      FilterConcat(a, b', p);
    }
  }

  /** Filtering twice with the same predicate is filtering once. */
  lemma {:induction false} FilterIdempotent<T>(s: seq<T>, p: T -> bool)
    ensures Filter(Filter(s, p), p) == Filter(s, p)
    decreases |s|
  {
    if |s| > 0 {
      var init := s[..|s| - 1];
      var x := s[|s| - 1];
      var tail := if p(x) then [x] else [];
      FilterIdempotent(init, p);
      FilterConcat(Filter(init, p), tail, p);
      if p(x) {
        FilterSingleton(x, p);
      }
    }
  }

  /** The output is empty exactly when no element satisfies the predicate. */
  lemma FilterEmpty<T>(s: seq<T>, p: T -> bool)
    ensures |Filter(s, p)| == 0 <==> forall i :: 0 <= i < |s| ==> !p(s[i])
  {
    var r := Filter(s, p);
    if |r| > 0 {
      assert r[0] in r;
    }
    if exists i :: 0 <= i < |s| && p(s[i]) {
      var i :| 0 <= i < |s| && p(s[i]);
      assert s[i] in s;
      assert s[i] in r;
    }
  }

  /** The output starts with the first satisfying element of the input. */
  lemma {:induction false} FilterHead<T>(s: seq<T>, p: T -> bool, j: nat)
    requires j < |s| && p(s[j])
    requires forall i :: 0 <= i < j ==> !p(s[i])
    ensures |Filter(s, p)| > 0 && Filter(s, p)[0] == s[j]
    decreases |s|
  {
    var init := s[..|s| - 1];
    if j < |s| - 1 {
      FilterHead(init, p, j);
    } else {
      FilterEmpty(init, p);
    }
  }

  /** `slices.MinFunc`: the running minimum starts at the first element and
      is replaced only by an element that compares strictly less. The result
      is the POSITION of the chosen element. Panics on an empty slice, hence
      the precondition. */
  function MinFunc<T>(s: seq<T>, cmp: (T, T) -> int): (r: nat)
    requires |s| > 0
    ensures r < |s|
  {
    MinFrom(s, cmp, 1, 0)
  }

  /** The loop of `MinFunc` from index `i`, with the running minimum at `m`. */
  function MinFrom<T>(s: seq<T>, cmp: (T, T) -> int, i: nat, m: nat): (r: nat)
    requires m < i <= |s|
    ensures m <= r < |s|
    decreases |s| - i
  {
    if i == |s| then m
    else if cmp(s[i], s[m]) < 0 then MinFrom(s, cmp, i + 1, i)
    else MinFrom(s, cmp, i + 1, m)
  }

  /** Whatever the comparator, no later element compares less than the one
      `MinFunc` chooses, and unless it chooses the first element, the chosen
      one compared less than some earlier element. */
  lemma MinFuncOrder<T>(s: seq<T>, cmp: (T, T) -> int)
    requires |s| > 0
    ensures forall j :: MinFunc(s, cmp) < j < |s| ==> cmp(s[j], s[MinFunc(s, cmp)]) >= 0
    ensures MinFunc(s, cmp) > 0 ==> exists j :: 0 <= j < MinFunc(s, cmp) && cmp(s[MinFunc(s, cmp)], s[j]) < 0
  {
    MinFromOrder(s, cmp, 1, 0);
  }

  lemma {:induction false} MinFromOrder<T>(s: seq<T>, cmp: (T, T) -> int, i: nat, m: nat)
    requires m < i <= |s|
    ensures var r := MinFrom(s, cmp, i, m);
      && (r != m ==> i <= r && exists j :: 0 <= j < r && cmp(s[r], s[j]) < 0)
      && (forall j :: i <= j < |s| && r < j ==> cmp(s[j], s[r]) >= 0)
    decreases |s| - i
  {
    if i < |s| {
      var m' := if cmp(s[i], s[m]) < 0 then i else m;
      MinFromOrder(s, cmp, i + 1, m');
    }
  }

  /** `s[m]` has the least key among `s[..n]`, and every earlier element has
      a strictly greater key. */
  ghost predicate FirstLeast<T>(s: seq<T>, key: T -> int, m: nat, n: nat)
  {
    && m < n <= |s|
    && (forall j :: 0 <= j < n ==> key(s[m]) <= key(s[j]))
    && (forall j :: 0 <= j < m ==> key(s[m]) < key(s[j]))
  }

  lemma {:induction false} MinFromFirstLeast<T>(s: seq<T>, cmp: (T, T) -> int, key: T -> int, i: nat, m: nat)
    requires m < i <= |s|
    requires forall a, b :: cmp(a, b) == Compare(key(a), key(b))
    requires FirstLeast(s, key, m, i)
    ensures FirstLeast(s, key, MinFrom(s, cmp, i, m), |s|)
    decreases |s| - i
  {
    if i < |s| {
      assert cmp(s[i], s[m]) == Compare(key(s[i]), key(s[m]));
      FirstLeastStep(s, key, i, m);
      MinFromFirstLeast(s, cmp, key, i + 1, if cmp(s[i], s[m]) < 0 then i else m);
    }
  }

  /** One step of the scan keeps the running minimum the first least. */
  lemma FirstLeastStep<T>(s: seq<T>, key: T -> int, i: nat, m: nat)
    requires i < |s| && FirstLeast(s, key, m, i)
    ensures FirstLeast(s, key, if key(s[i]) < key(s[m]) then i else m, i + 1)
  {
    if key(s[i]) < key(s[m]) {
      forall j | 0 <= j < i
        ensures key(s[i]) < key(s[j])
      {
        assert key(s[m]) <= key(s[j]);
      }
    }
  }

  /** With a comparator that orders by a key, `MinFunc` picks an element of
      least key, and the earliest one among ties. */
  lemma MinFuncFirstLeast<T>(s: seq<T>, cmp: (T, T) -> int, key: T -> int)
    requires |s| > 0
    requires forall a, b :: cmp(a, b) == Compare(key(a), key(b))
    ensures forall j :: 0 <= j < |s| ==> key(s[MinFunc(s, cmp)]) <= key(s[j])
    ensures forall j :: 0 <= j < MinFunc(s, cmp) ==> key(s[MinFunc(s, cmp)]) < key(s[j])
  {
    MinFromFirstLeast(s, cmp, key, 1, 0);
  }

  lemma {:induction false} MinFromNeverMoves<T>(s: seq<T>, cmp: (T, T) -> int, i: nat, m: nat)
    requires m < i <= |s|
    requires forall a, b :: cmp(a, b) >= 0
    ensures MinFrom(s, cmp, i, m) == m
    decreases |s| - i
  {
    if i < |s| {
      MinFromNeverMoves(s, cmp, i + 1, m);
    }
  }

  /** A comparator that never answers "less" leaves `MinFunc` on the first
      element. */
  lemma MinFuncNeverMoves<T>(s: seq<T>, cmp: (T, T) -> int)
    requires |s| > 0
    requires forall a, b :: cmp(a, b) >= 0
    ensures MinFunc(s, cmp) == 0
  {
    MinFromNeverMoves(s, cmp, 1, 0);
  }

  /** Sequences that differ only in a middle part are different. */
  lemma MiddleDiffers<T>(p: seq<T>, x: seq<T>, y: seq<T>, q: seq<T>)
    requires x != y
    ensures p + x + q != p + y + q
  {
    if |x| == |y| {
      assert (p + x + q)[|p|..|p| + |x|] == x;
      assert (p + y + q)[|p|..|p| + |y|] == y;
    } else {
      assert |p + x + q| != |p + y + q|;
    }
  }
}

=== FILE: wrappers.dfy ===
/** Option and Result: the shapes the model uses for Go's nil pointers and
    for constructor calls that can fail. */
module Wrappers {

  /** A value that may be absent (a Go pointer that may be nil). */
  datatype Option<+T> = None | Some(value: T)

  /** A value or an error. */
  datatype Result<+T, +E> = Success(value: T) | Failure(error: E)
}
